=== FILE: README.md ===
# medTrack page logic in Dafny

medTrack is a single-page pharmacy back office. Its pages fetch lists of records
from a REST backend and do small computations in memory before they show a table
or send a form. This project models those computations as pure functions
over sequences of immutable records and proves what they promise.

- **Receivables** (`Collection`) and **payables** (`DealerPayments`) form a
  ledger over sales and purchase orders. They compute the paid total and the
  remaining balance of each order and the list of orders still owed. They also
  cover the search and the overdue / due-soon buttons over that list, its sort
  by due date, the row colours and the summary cards. The guard on a new payment
  is modelled too. The shared parts live in `Ledger`. The key invariant is that
  an accepted payment never takes the paid total of an order past its total.
- **Billing** (`Billing`) covers the basket of a new sale: add, edit and remove
  items, with no batch twice. It also covers the GST totals and the line amounts
  that add up to them, the checks before saving, and the stock left after the
  sale.
- **Stock manager** (`Stock`) covers the inventory search, the purchase orders
  offered for a dealer, the batch and purchase-order payloads, and delete.
- **Directories**: `Customers`, `Dealers`, `Brands`, `Products` and
  `OrderHistory` model the search filters, payload defaults, add / edit /
  delete on the lists and the values a row shows.
- **Brand colour** (`Colors`) models the string hash behind the product badges.

## Representation

- Amounts of money are exact `real`s. Quantities are `int`s.
- The dates the pages compare are day numbers. The current instant is `nowMs`,
  in milliseconds; day `d` begins at `d * 86400000`.
- A field that a record may lack is an `Option`.
- JavaScript's `a || b` on strings is `OrElse`: a missing or empty string falls
  through. `a ?? b` is `GetOr`: only a missing value falls through.
- `toLowerCase` lowers ASCII letters. `includes` is a scan, proved equal to "occurs
  at some position" (`Common.IncludesIff`).
- The receivables page finds an order's status through a map filled by
  `forEach`, so the last order with a given id wins (`Collection.LastOrderIndex`).
  The payables page uses `find`, so the first one wins
  (`DealerPayments.FirstOrderIndex`). Both are modelled as written.
- `Array.prototype.sort` is a stable insertion sort on an integer key
  (`Lists.SortBy`). The payment history sorts on the negated date.
- A save handler is a function from the form to the request it would send
  (`Common.SaveRequest`, `Ledger.Outcome`, `Billing.SaveOutcome`). `window.confirm`
  is a boolean input. Generated ids, order numbers and "today" are inputs too.
- The receivables and payables pages share one row colour (`Ledger.RowColour`).
  Their `getDaysUntilDue` and `getStatusColor` are the same code
  (src/pages/DealerPayment.tsx:165-175 repeats src/pages/Collection.tsx:167-177).

## Model

| member | source | states |
|---|---|---|
| Common.IncludesIff | src/pages/Collection.tsx:99-100 | the scanning `includes` holds exactly when the needle occurs at some position of the text |
| Common.EmptyQueryMatches | src/pages/Collection.tsx:99-100 | an empty search term matches every field |
| Common.MatchesAnyPart | src/pages/Brand.tsx:36 | a query whose lower-cased form equals a lower-cased slice of the field matches it |
| Common.LowerIdempotent | src/pages/Collection.tsx:99 | lower-casing twice is lower-casing once |
| Common.NullIfEmptyRoundTrip | src/pages/Collection.tsx:148 | a field sent as `value \|\| null` reads back as the typed value; it is null exactly when empty |
| Common.SaveTo | src/pages/Dealer.tsx:63-67 | a form with a record being edited sends an update of that id, otherwise a create, with the same payload |
| Lists.Filter | src/pages/Collection.tsx:94 | `filter` keeps exactly the elements satisfying the predicate, with their multiplicities, in order |
| Lists.FilterSnoc | src/pages/Collection.tsx:62 | filtering a list with one more element at the end adds that element exactly when it passes |
| Lists.FindFirst | src/pages/DealerPayment.tsx:58 | `find` returns nothing exactly when no element passes, otherwise the first one that does |
| Lists.SumByFilter | src/pages/Collection.tsx:180-183 | dropping non-negative terms never raises a sum, and dropping zeros leaves it unchanged |
| Lists.SumByPartition | src/pages/Collection.tsx:180-183 | the passing and the failing elements split a list's sum and its length |
| Lists.SortBy | src/pages/Collection.tsx:116 | the sort returns a permutation of its input in ascending key order |
| Lists.RemoveKey | src/pages/Brand.tsx:72 | deleting an id removes exactly the entries with that id and keeps the rest in order; nothing changes when no entry has it |
| Lists.RemoveKeyIdempotent | src/pages/Brand.tsx:72 | deleting the same id twice is the same as deleting it once |
| Lists.FilterKeepsDistinct | src/pages/GenerateBill.tsx:121 | filtering keeps keys distinct |
| Ledger.DaysUntilDue | src/pages/Collection.tsx:167-171 | the ceiling of the milliseconds to the start of the due day, over a day, is the due day minus today |
| Ledger.InWindowDays | src/pages/Collection.tsx:103-114 | the overdue button keeps due < today and the due-soon button keeps today <= due <= today + 7 |
| Ledger.StatusColour | src/pages/Collection.tsx:173-177 | rose exactly for a negative day count, amber exactly for 0 to 7 days, blue exactly beyond a week |
| Ledger.ColourMatchesWindow | src/pages/Collection.tsx:173-177 | rose exactly for days < 0 (the overdue rows), amber exactly for 0..7 (the due-soon rows), blue beyond |
| Ledger.RowColour | src/pages/Collection.tsx:167-177 | a row's colour is rose exactly when the overdue button shows it and amber exactly when the due-soon button shows it |
| Ledger.Outstanding | src/pages/Collection.tsx:69 | `max(0, total - paid)`: never negative, positive exactly when paid < total |
| Ledger.SelectedAll | src/pages/Collection.tsx:98-101 | an empty search with no date button keeps every pending row |
| Ledger.FilterPending | src/pages/Collection.tsx:97-117 | the filtered rows are the matching rows in the window, with their multiplicities, sorted by ascending due date |
| Ledger.Summarize | src/pages/Collection.tsx:179-191 | the outstanding total is the sum of the remaining amounts; the overdue total and count are the sum and number of rows past due; the count is 0 exactly when no row is past due, and 0 <= overdue total <= outstanding total |
| Ledger.OverdueSplit | src/pages/Collection.tsx:179-191 | the overdue card plus the balance of the rows not yet past due is the outstanding card, and likewise for the counts |
| Ledger.OverdueCardCountsDueToday | src/pages/Collection.tsx:182 | a row due today is counted overdue on the cards once the day has begun, yet the overdue button leaves it out and it is amber |
| Ledger.OverdueFilterWithinCard | src/pages/Collection.tsx:106-107 | every row the overdue button shows is counted overdue on the cards |
| Ledger.AmountGuard | src/pages/Collection.tsx:132-140 | a payment passes exactly when 0 < amount <= remaining; the zero-or-negative alert shows only when the amount is within the balance |
| Collection.LastOrderIndex | src/pages/Collection.tsx:60-73 | the position of the last order with the id, since later orders overwrite earlier ones in the map; -1 when none has it |
| Collection.StatusMap | src/pages/Collection.tsx:57-74 | the map holds exactly the order ids, each with the collected total and balance of the last order with that id |
| Collection.OrderPaymentStatus | src/pages/Collection.tsx:76-78 | an unknown id gives all zeros; otherwise the total of the last order with the id, the sum of its collections, and a balance that is `max(0, total - collected)` |
| Collection.ToPending | src/pages/Collection.tsx:82-92 | a pending row carries the order's id, number and total; the due date falls back to the order date and the name to "Unknown Customer" |
| Collection.PendingOrders | src/pages/Collection.tsx:80-95 | the pending list holds exactly the orders with a positive balance, in input order |
| Collection.PendingHasId | src/pages/Collection.tsx:124-127 | an order id appears in the pending list exactly when its balance is positive |
| Collection.FindPending | src/pages/Collection.tsx:124-127 | the lookup finds a pending row exactly when the order's balance is positive |
| Collection.FilteredPendingOrders | src/pages/Collection.tsx:97-117 | the rows shown are exactly the pending orders that match the search and lie in the chosen window, each as often as it is pending, by ascending due date |
| Collection.AddCollection | src/pages/Collection.tsx:119-149 | no order or amount, or nothing owed: nothing happens; accepted exactly when 0 < amount <= balance; rejected with an alert exactly when something is owed and the amount is outside that range, an amount above the balance being refused as such; the payload copies the order, the amount and the form, with empty customer and comment sent as null |
| Collection.StatusSnoc | src/pages/Collection.tsx:60-71 | a new collection changes only its own order's status, by exactly its amount |
| Collection.AcceptedCollectionKeepsBalance | src/pages/Collection.tsx:129-149 | after an accepted collection its order's collected total grows by the amount and stays within the order total; other orders are unchanged |
| Collection.AcceptedCollectionPreservesBalanced | src/pages/Collection.tsx:119-149 | if no order was over-collected before an accepted collection, none is after it |
| Collection.PendingSumIsTotal | src/pages/Collection.tsx:180 | the pending total equals the balance summed over all orders |
| Collection.Stats | src/pages/Collection.tsx:179-191 | the overdue total and count are the sum and number of the pending orders past due; 0 <= overdue total <= pending total, and the collected card sums every collection |
| DealerPayments.FirstOrderIndex | src/pages/DealerPayment.tsx:58 | the position of the first purchase order with the id, or -1 when none has it |
| DealerPayments.PurchaseOrderPaymentStatus | src/pages/DealerPayment.tsx:57-75 | an unknown id gives all zeros; otherwise the first order's total, the sum of its payments, and a balance of `max(0, total - paid)` |
| DealerPayments.ToPending | src/pages/DealerPayment.tsx:79-89 | the due date falls back from the due date to the order date to today; an empty dealer id becomes ""; the name falls back to "Unknown Dealer" and a missing total to 0 |
| DealerPayments.PendingPurchaseOrders | src/pages/DealerPayment.tsx:77-92 | the pending list holds exactly the purchase orders with a positive balance, in input order |
| DealerPayments.PendingHasId | src/pages/DealerPayment.tsx:122-125 | an id appears in the pending list exactly when its balance is positive |
| DealerPayments.FindPending | src/pages/DealerPayment.tsx:122-125 | the lookup finds a row exactly when something is still payable |
| DealerPayments.FilteredPendingPurchaseOrders | src/pages/DealerPayment.tsx:94-115 | the rows shown are exactly the pending purchase orders that match the search and lie in the chosen window, each as often as it is pending, by ascending due date |
| DealerPayments.AddDealerPayment | src/pages/DealerPayment.tsx:117-147 | the guards as on the receivables page: accepted exactly when 0 < amount <= balance, rejected exactly when something is payable and the amount is outside that range; the payload carries the purchase order's id and its dealer id, with an empty dealer or comment sent as null |
| DealerPayments.PaidForSnoc | src/pages/DealerPayment.tsx:63-65 | a new payment adds its amount to its own purchase order's paid total only |
| DealerPayments.StatusSnoc | src/pages/DealerPayment.tsx:57-75 | a new payment changes only its own purchase order's status, by exactly its amount |
| DealerPayments.AcceptedPaymentNeverOverpays | src/pages/DealerPayment.tsx:127-138 | after an accepted payment its order's paid total grows by the amount and stays within the order total; other orders are unchanged |
| DealerPayments.AcceptedPaymentPreservesBalanced | src/pages/DealerPayment.tsx:117-147 | if no purchase order was overpaid before an accepted payment, none is after it |
| DealerPayments.PendingSumIsTotal | src/pages/DealerPayment.tsx:178-181 | the payable total equals the balance summed over all purchase orders |
| DealerPayments.Stats | src/pages/DealerPayment.tsx:177-197 | the overdue total and count are the sum and number of the pending purchase orders past due; 0 <= overdue total <= payable total, and the paid card sums every payment |
| DealerPayments.PaidTotalGrows | src/pages/DealerPayment.tsx:182 | recording a payment raises the paid card by exactly its amount |
| DealerPayments.SortedDealerPayments | src/pages/DealerPayment.tsx:199-203 | the history is a permutation of the payments, latest payment date first; the input is left as it is |
| Billing.BillableStock | src/pages/GenerateBill.tsx:56 | only batches with a positive quantity are offered, in order |
| Billing.FilteredStock | src/pages/GenerateBill.tsx:68-74 | a batch is shown exactly when its product name or batch number contains the search case-insensitively, or its HSN contains it as typed |
| Billing.FilteredStockEmptyQuery | src/pages/GenerateBill.tsx:68-74 | an empty search shows the whole stock |
| Billing.ComputeTotals | src/pages/GenerateBill.tsx:76-88 | taxable is the sum of rate x quantity, SGST and CGST the sums of each line's tax share, GST is SGST plus CGST, net is taxable plus GST, and an empty basket totals zero |
| Billing.TotalsSnoc | src/pages/GenerateBill.tsx:76-88 | adding an item raises taxable by its rate x quantity, each tax total by that times its rate, and net by its line amount |
| Billing.LineAmountSplits | src/pages/GenerateBill.tsx:172-173 | a line amount is its base plus its SGST share plus its CGST share |
| Billing.LineAmountsSumToNet | src/pages/GenerateBill.tsx:171-188 | the unrounded line amounts add up to the net payable of the totals |
| Billing.TotalsNonNegative | src/pages/GenerateBill.tsx:76-88 | with non-negative rates, quantities and tax percentages, every total is non-negative and net >= taxable |
| Billing.NewItem | src/pages/GenerateBill.tsx:96-111 | a new item has quantity 1 and selling rate = MRP, the batch's taxes, "Unknown Product" for a missing name and "-" for a missing expiry |
| Billing.AddToBasket | src/pages/GenerateBill.tsx:90-114 | a batch already in the basket leaves it unchanged, otherwise one item is appended; the batch is then present and batch ids stay distinct |
| Billing.UpdateItem | src/pages/GenerateBill.tsx:116-118 | only the edited field of the items with that id changes; length, other items and batch ids are unchanged |
| Billing.RemoveItem | src/pages/GenerateBill.tsx:120-122 | the items with that id go, the others stay in order, and batch ids stay distinct |
| Billing.Available | src/pages/GenerateBill.tsx:138-139 | the quantity of the first batch with the id, 0 when none has it; never negative on the billable list |
| Billing.CheckItem | src/pages/GenerateBill.tsx:140-147 | an item passes exactly when 0 < quantity <= available |
| Billing.CheckItems | src/pages/GenerateBill.tsx:137-148 | no refusal exactly when every item passes, otherwise the refusal of the first item that fails |
| Billing.CheckItemsPass | src/pages/GenerateBill.tsx:137-148 | the loop lets the order through exactly when every item is sellable |
| Billing.SaveOrder | src/pages/GenerateBill.tsx:131-162 | no customer, due date or items: nothing happens; the stock check refuses exactly when some item is not sellable; otherwise the order is sent with status PENDING, its taxable value and both tax totals are the basket totals, and its total is the sum of the line amounts |
| Billing.ItemPayload | src/pages/GenerateBill.tsx:171-189 | product id and name, batch, pack, HSN, MRP, rate, quantities and both tax rates are copied from the item; the expiry placeholder "-" goes back to null; the line amount is base plus both taxes |
| Billing.ItemPayloads | src/pages/GenerateBill.tsx:171 | one item payload per basket item, in basket order |
| Billing.PayloadSum | src/pages/GenerateBill.tsx:171-190 | the payloads' line amounts add up to the basket's line amounts |
| Billing.ItemPayloadsSumToTotal | src/pages/GenerateBill.tsx:157-190 | the item payloads add up to the order's net payable |
| Billing.Decrement | src/pages/GenerateBill.tsx:197-200 | the new quantity is `max(0, available - sold)` |
| Billing.StockUpdates | src/pages/GenerateBill.tsx:195-202 | one quantity update per basket item, in basket order |
| Billing.SaleDecrementsExactly | src/pages/GenerateBill.tsx:195-202 | after the save checks each batch goes down by exactly the quantity sold and stays non-negative |
| Stock.ProductNameOf | src/pages/StockManager.tsx:65 | the batch's own non-empty product name; otherwise the name of the first product whose id is the batch's product id; otherwise "" |
| Stock.FoundByLookedUpProductName | src/pages/StockManager.tsx:65-75 | a batch without its own product name is found by the looked-up product name, typed as is or in lower case |
| Stock.DealerNameOf | src/pages/StockManager.tsx:68 | the batch's own non-empty dealer name; otherwise the company name of the first dealer whose id is the batch's dealer id; otherwise "" |
| Stock.Filtered | src/pages/StockManager.tsx:63-81 | a batch is kept exactly when its product, batch, dealer or HSN contains the search case-insensitively and the product filter is empty or its product |
| Stock.FilteredEverything | src/pages/StockManager.tsx:71-79 | an empty search with no product chosen keeps every batch |
| Stock.ProductFilterNarrows | src/pages/StockManager.tsx:77-79 | choosing a product keeps exactly the search's results for that product |
| Stock.PurchaseOrdersForDealer | src/pages/StockManager.tsx:83-88 | nothing without a dealer, otherwise exactly that dealer's purchase orders in order |
| Stock.BatchPayload | src/pages/StockManager.tsx:95-112 | HSN, pack, MRP and purchase rate are copied, given taxes are kept and missing ones are 0, total = qty x rate, and empty dealer, purchase order or expiry are null and read back as typed |
| Stock.SaveBatch | src/pages/StockManager.tsx:114-119 | the batch payload is sent; the batch being edited is updated, otherwise one is created |
| Stock.DeleteBatch | src/pages/StockManager.tsx:128-135 | a confirmed delete removes exactly the batches with that id and keeps every other batch as often as before, in order; a cancelled one changes nothing |
| Stock.CreatePurchaseOrder | src/pages/StockManager.tsx:141-155 | nothing without a number or order date; a blank total is 0; blank dealer, due date and notes are null and read back as typed |
| Customers.FilteredCustomers | src/pages/Customer.tsx:27-33 | kept exactly when the name or city contains the search case-insensitively or the mobile number contains it as typed |
| Customers.FilteredCustomersEmpty | src/pages/Customer.tsx:27-33 | an empty search lists every customer |
| Customers.NewCustomer | src/pages/Customer.tsx:40-48 | an edited record keeps a non-empty id; a new record, or one whose id is empty, gets the fresh id; active exactly when the box is "on" |
| Customers.SaveCustomer | src/pages/Customer.tsx:50-54 | an edit replaces exactly the records with the edited id and keeps the length; an add appends one record |
| Customers.SaveKeepsIdsDistinct | src/pages/Customer.tsx:41-54 | with a fresh id for adds, ids stay distinct |
| Customers.DeleteCustomer | src/pages/Customer.tsx:58-62 | a confirmed delete removes exactly the records with that id and keeps every other record as often as before, in order; a cancelled one changes nothing |
| OrderHistory.NatToString | src/pages/Orders.tsx:18-20 | the decimal text is non-empty, all digits, with no leading zero |
| OrderHistory.ParseNatToString | src/pages/Orders.tsx:18-20 | reading the digits back gives the number |
| OrderHistory.DueLabel | src/pages/Orders.tsx:17-20 | the label starts with "Overdue " exactly for a negative day count |
| OrderHistory.DueLabelRoundTrip | src/pages/Orders.tsx:17-20 | the day count can be read back from its label |
| OrderHistory.DueInfo | src/pages/Orders.tsx:13-21 | "Overdue" exactly for a due date before today, and the label reads back as due minus today |
| OrderHistory.FilteredOrders | src/pages/Orders.tsx:50-55 | kept exactly when the order number or customer name ("" when missing) contains the search case-insensitively |
| OrderHistory.FilteredOrdersEmpty | src/pages/Orders.tsx:50-55 | an empty search lists every order |
| OrderHistory.SelectedOrder | src/pages/Orders.tsx:57-59 | none without a selected id; otherwise the first order with it, none exactly when no order has it |
| OrderHistory.SelectedOrderItems | src/pages/Orders.tsx:61-66 | empty without a selected order, otherwise exactly its items in order |
| OrderHistory.ShownDueDate | src/pages/Orders.tsx:113 | the due date, else the order date |
| OrderHistory.ShownDueDateAgreesWithReceivables | src/pages/Orders.tsx:113 | the history shows the due date under which the receivables page files the order |
| Dealers.EitherSpelling | src/pages/Dealer.tsx:35-36 | the snake_case value if non-empty, else the camelCase one if non-empty, else the fallback |
| Dealers.FilteredDealers | src/pages/Dealer.tsx:33-45 | kept exactly when company, contact or city contains the search case-insensitively |
| Dealers.FilteredDealersEmpty | src/pages/Dealer.tsx:39-43 | an empty search lists every dealer |
| Dealers.DealerPayloadOf | src/pages/Dealer.tsx:52-60 | a blank balance is 0, active exactly when the box is "on", and empty address and city are null and read back as typed |
| Dealers.SaveDealer | src/pages/Dealer.tsx:47-67 | the dealer payload built from the form is sent; the dealer being edited is updated, otherwise one is created |
| Dealers.DeleteDealer | src/pages/Dealer.tsx:76-82 | a confirmed delete removes exactly the dealers with that id and keeps every other dealer as often as before, in order; a cancelled one changes nothing |
| Dealers.Row | src/pages/Dealer.tsx:138-143 | status and balance take the first present spelling (an explicit false or 0 stays), defaulting to active and 0; text cells are never blank |
| Dealers.RowShowsSearchedName | src/pages/Dealer.tsx:138 | a row shows the company name the search looks at, or "-" when it is empty |
| Dealers.RowShowsSavedPayload | src/pages/Dealer.tsx:142-143 | a dealer stored from the form shows the status and balance the form sent |
| Brands.CompanyName | src/pages/Brand.tsx:34 | the snake_case company if non-empty, else the camelCase one, else the fallback |
| Brands.FilteredBrands | src/pages/Brand.tsx:32-40 | kept exactly when the name or company contains the search case-insensitively |
| Brands.FilteredBrandsEmpty | src/pages/Brand.tsx:35-38 | an empty search lists every brand |
| Brands.BrandFoundByOwnName | src/pages/Brand.tsx:36 | a brand is found by any slice of its own name, typed in any ASCII case |
| Brands.SaveBrand | src/pages/Brand.tsx:42-57 | the payload is exactly the two form fields; the edited brand is updated, otherwise one is created |
| Brands.DeleteBrand | src/pages/Brand.tsx:66-72 | a confirmed delete removes exactly the brands with that id and keeps every other brand as often as before, in order; a cancelled one changes nothing |
| Brands.ShownCompany | src/pages/Brand.tsx:127 | "-" when both spellings are missing or empty, otherwise the name the search uses |
| Products.FilteredProducts | src/pages/Products.tsx:43-50 | kept exactly when (the name contains the search case-insensitively or the HSN contains it as typed) and the brand filter is empty or the product's brand |
| Products.FilteredProductsEverything | src/pages/Products.tsx:45-47 | an empty search with no brand chosen lists every product |
| Products.ProductPayloadOf | src/pages/Products.tsx:59-65 | no brand is sent as null and reads back as ""; the other fields are copied |
| Products.SaveProduct | src/pages/Products.tsx:67-72 | the product payload built from the form is sent; the product being edited is updated, otherwise one is created |
| Products.DeleteProduct | src/pages/Products.tsx:80-84 | a confirmed delete removes exactly the products with that id and keeps every other product as often as before, in order; a cancelled one changes nothing |
| Products.BrandBadge | src/pages/Products.tsx:149-166 | the badge says "Generic" for a missing or empty brand, but a missing one is coloured orange (the hash of "Generic") and an empty one emerald |
| Colors.ToInt32 | src/utils/colors.ts:14 | the result is the signed 32-bit value congruent to the input modulo 2^32 |
| Colors.CodeUnits | src/utils/colors.ts:13-14 | one code unit for a basic-plane character, two otherwise, each below 2^16 |
| Colors.Utf16 | src/utils/colors.ts:13 | between one and two code units per character, each below 2^16 |
| Colors.Step | src/utils/colors.ts:14 | one turn is 31 x hash + code modulo 2^32, and differs from code - hash by less than 2^31 |
| Colors.Hash | src/utils/colors.ts:12-15 | after n code units the hash is at most n(2^31 + 2^16) in size |
| Colors.HashIsPolyHashMod32 | src/utils/colors.ts:12-15 | the loop's hash is congruent modulo 2^32 to the polynomial string hash with multiplier 31 |
| Colors.HashBound | src/utils/colors.ts:12-15 | under 2^53 in size for names below 2^21 code units, so the double arithmetic is exact |
| Colors.SchemeIndex | src/utils/colors.ts:16 | the index is always a valid position in the eight schemes |
| Colors.BrandColour | src/utils/colors.ts:1-17 | a missing name gets orange (the scheme of "Generic") and the empty name emerald |
| Colors.MissingNameIsGeneric | src/utils/colors.ts:1 | leaving the name out colours like passing "Generic" |
| Colors.BrandColourLoop | src/utils/colors.ts:12-16 | the loop computes the same scheme as the fold |
| Colors.EmptyIsEmerald | src/utils/colors.ts:12-16 | the empty name hashes to 0 and gets emerald |
| Colors.GenericIsOrange | src/utils/colors.ts:12-16 | "Generic" hashes to 1584505271, which selects orange |

## Left out

- The API services, axios, `loadData` and the re-fetch after a save, `Promise.all`,
  React state and effects, `alert` and `window.confirm`. A save is the payload or
  request it would send. A confirmation is a boolean input. The model assumes
  every request succeeds.
- Number parsing: `parseFloat`, `Number()` and NaN. Form amounts arrive parsed,
  and an empty box is `None`. A non-numeric amount gives NaN in the source, and
  NaN passes both amount checks. The model has no NaN.
- `toFixed(2)` rounding of the order totals and line amounts. The sums are
  stated exactly, before rounding.
- Time zones. Dates are day numbers, and day `d` starts at `d * 86400000` ms.
  The source parses date strings as UTC and sets local midnight.
- Non-ASCII case folding in `toLowerCase`.
- Fractional quantities from the number inputs; quantities are integers.
- Generated ids and order numbers (`Date.now()`, `Math.random()`). They are
  inputs, and fresh ids are assumed where a lemma needs them.
- `Dashboard.tsx` and `data.ts`: a hard-coded fixture plus the clock.
- `App.tsx`, `index.ts`, `vite.config.ts` and `currency.ts`, as well as
  `Intl`/`toLocaleString` formatting: routing, shell and locale formatting.
- Colors.BrandColour: hash values are exact integers. The source works in
  doubles, which agree only while the hash stays below 2^53. `HashBound`
  shows this holds for names under 2^21 code units.
- Lists.SortBy: the contract states a sorted permutation but not stability.
  Only the due-date and payment-date orders are promised.
- Anything only the backend enforces, such as unique ids or referential links.

=== FILE: billing.dfy ===
/** The billing screen (src/pages/GenerateBill.tsx): the stock offered for
    sale, the basket, its GST totals, the checks before an order is saved,
    the order and line payloads and the stock left after the sale. */
module Billing {
  import opened Common
  import opened Lists
  import opened Records

  /** A line of the basket. */
  datatype BasketItem = BasketItem(
    id: string,
    inventoryBatchId: string,
    productId: string,
    productName: string,
    batch: string,
    expiry: string,
    pack: string,
    hsn: string,
    mrp: Money,
    purchaseRate: Money,
    sellingRate: Money,
    quantity: int,
    sgst: real,
    cgst: real)

  function InStock(b: InventoryBatch): bool
  {
    b.qty > 0
  }

  /** The stock list of the page: only batches with a positive quantity. */
  function BillableStock(inventory: seq<InventoryBatch>): (r: seq<InventoryBatch>)
    ensures forall b :: b in r <==> b in inventory && b.qty > 0
    ensures IsSubseq(r, inventory)
  {
    Filter(inventory, InStock)
  }

  /** The stock search: product name or batch number case-insensitively, or
      the HSN code as typed. */
  predicate StockMatches(b: InventoryBatch, query: string)
  {
    MatchesCI(OrElse(b.productName, ""), query) || MatchesCI(b.batchNo, query) || Includes(b.hsn, query)
  }

  /** `filteredStock`. */
  function FilteredStock(stock: seq<InventoryBatch>, query: string): (r: seq<InventoryBatch>)
    ensures forall b :: b in r <==> b in stock && StockMatches(b, query)
    ensures IsSubseq(r, stock)
  {
    Filter(stock, (b: InventoryBatch) => StockMatches(b, query))
  }

  /** An empty search shows the whole stock list. */
  lemma FilteredStockEmptyQuery(stock: seq<InventoryBatch>)
    ensures FilteredStock(stock, "") == stock
  {
    forall b | b in stock
      ensures StockMatches(b, "")
    {
      EmptyQueryMatches(OrElse(b.productName, ""));
    }
    FilterAll(stock, (b: InventoryBatch) => StockMatches(b, ""));
  }

  /** `sellingRate * quantity`. */
  function LineBase(i: BasketItem): real
  {
    i.sellingRate * i.quantity as real
  }

  function LineSgst(i: BasketItem): real
  {
    LineBase(i) * (i.sgst / 100.0)
  }

  function LineCgst(i: BasketItem): real
  {
    LineBase(i) * (i.cgst / 100.0)
  }

  /** The line amount of an item payload before rounding: the base plus the
      base times the combined tax rate. */
  function LineAmount(i: BasketItem): real
  {
    LineBase(i) + LineBase(i) * ((i.sgst + i.cgst) / 100.0)
  }

  datatype Totals = Totals(taxableValue: Money, sgstTotal: Money, cgstTotal: Money, gstTotal: Money, netPayable: Money)

  /** `totals`: three sums over the basket and two derived figures. */
  function ComputeTotals(basket: seq<BasketItem>): (t: Totals)
    ensures t.taxableValue == SumBy(basket, LineBase)
    ensures t.sgstTotal == SumBy(basket, LineSgst) && t.cgstTotal == SumBy(basket, LineCgst)
    ensures t.gstTotal == t.sgstTotal + t.cgstTotal
    ensures t.netPayable == t.taxableValue + t.gstTotal
    ensures basket == [] ==> t == Totals(0.0, 0.0, 0.0, 0.0, 0.0)
  {
    var taxable := SumBy(basket, LineBase);
    var sgst := SumBy(basket, LineSgst);
    var cgst := SumBy(basket, LineCgst);
    Totals(taxable, sgst, cgst, sgst + cgst, taxable + sgst + cgst)
  }

  /** Adding an item to the basket raises the taxable value by its rate
      times its quantity, each tax total by that times the item's rate, and
      the net payable by its line amount. */
  lemma TotalsSnoc(basket: seq<BasketItem>, i: BasketItem)
    ensures var before := ComputeTotals(basket);
            var after := ComputeTotals(basket + [i]);
            var base := i.sellingRate * i.quantity as real;
            && after.taxableValue == before.taxableValue + base
            && after.sgstTotal == before.sgstTotal + base * (i.sgst / 100.0)
            && after.cgstTotal == before.cgstTotal + base * (i.cgst / 100.0)
            && after.netPayable == before.netPayable + LineAmount(i)
  {
    assert (basket + [i])[..|basket|] == basket;
    LineAmountSplits(i);
  }

  /** Each line amount is its base plus its share of both taxes. */
  lemma LineAmountSplits(i: BasketItem)
    ensures LineAmount(i) == LineBase(i) + LineSgst(i) + LineCgst(i)
  {
    var b := LineBase(i);
    assert b * ((i.sgst + i.cgst) / 100.0) == b * (i.sgst / 100.0) + b * (i.cgst / 100.0);
  }

  /** The line amounts of an order add up to its net payable (before the
      rounding of each figure to two decimals). */
  lemma {:induction false} LineAmountsSumToNet(basket: seq<BasketItem>)
    ensures SumBy(basket, LineAmount) == ComputeTotals(basket).netPayable
  {
    if |basket| > 0 {
      var init := basket[..|basket| - 1];
      LineAmountsSumToNet(init);
      LineAmountSplits(basket[|basket| - 1]);
    }
  }

  /** With non-negative rates, quantities and tax percentages every total is
      non-negative and the net payable is at least the taxable value. */
  lemma {:induction false} TotalsNonNegative(basket: seq<BasketItem>)
    requires forall i :: i in basket ==> i.sellingRate >= 0.0 && i.quantity >= 0 && i.sgst >= 0.0 && i.cgst >= 0.0
    ensures 0.0 <= ComputeTotals(basket).taxableValue <= ComputeTotals(basket).netPayable
    ensures ComputeTotals(basket).sgstTotal >= 0.0 && ComputeTotals(basket).cgstTotal >= 0.0
  {
    forall i | i in basket
      ensures LineBase(i) >= 0.0 && LineSgst(i) >= 0.0 && LineCgst(i) >= 0.0
    {
      NonNegativeProduct(i.sellingRate, i.quantity as real);
      NonNegativeProduct(LineBase(i), i.sgst / 100.0);
      NonNegativeProduct(LineBase(i), i.cgst / 100.0);
    }
    SumByNonNegative(basket, LineBase);
    SumByNonNegative(basket, LineSgst);
    SumByNonNegative(basket, LineCgst);
  }

  lemma NonNegativeProduct(a: real, b: real)
    requires a >= 0.0 && b >= 0.0
    ensures a * b >= 0.0
  {
  }

  function BatchOf(i: BasketItem): string
  {
    i.inventoryBatchId
  }

  function HasBatch(batchId: string): BasketItem -> bool
  {
    (i: BasketItem) => i.inventoryBatchId == batchId
  }

  /** The item `addToBasket` creates for a batch; `id` is the fresh
      identifier the page makes from the clock and the batch id. */
  function NewItem(b: InventoryBatch, id: string): (i: BasketItem)
    ensures i.inventoryBatchId == b.id && i.productId == b.productId
    ensures i.quantity == 1 && i.sellingRate == b.mrp && i.mrp == b.mrp
    ensures i.sgst == b.sgst && i.cgst == b.cgst && i.purchaseRate == b.purchaseRate
    ensures i.productName == (if b.productName.Some? && b.productName.value != "" then b.productName.value else "Unknown Product")
    ensures i.expiry == (if b.expiryDate.Some? && b.expiryDate.value != "" then b.expiryDate.value else "-")
  {
    BasketItem(
      id,
      b.id,
      b.productId,
      OrElse(b.productName, "Unknown Product"),
      b.batchNo,
      OrElse(b.expiryDate, "-"),
      b.pack,
      b.hsn,
      b.mrp,
      b.purchaseRate,
      b.mrp,
      1,
      b.sgst,
      b.cgst)
  }

  /** `addToBasket`: a batch already in the basket is not added twice;
      otherwise one new item goes at the end. */
  function AddToBasket(basket: seq<BasketItem>, b: InventoryBatch, id: string): (r: seq<BasketItem>)
    ensures (exists i :: i in basket && i.inventoryBatchId == b.id) ==> r == basket
    ensures (forall i :: i in basket ==> i.inventoryBatchId != b.id) ==> r == basket + [NewItem(b, id)]
    ensures exists i :: i in r && i.inventoryBatchId == b.id
    ensures DistinctKeys(basket, BatchOf) ==> DistinctKeys(r, BatchOf)
  {
    match FindFirst(basket, HasBatch(b.id))
    case Some(_) => basket
    case None =>
      var r := basket + [NewItem(b, id)];
      assert r[|basket|] in r;
      assert forall k :: 0 <= k < |basket| ==> r[k] == basket[k] && basket[k] in basket;
      r
  }

  /** The two fields the basket table lets the user edit. */
  datatype Edit = SetQuantity(quantity: int) | SetSellingRate(rate: Money)

  function Apply(i: BasketItem, e: Edit): BasketItem
  {
    match e
    case SetQuantity(q) => i.(quantity := q)
    case SetSellingRate(rate) => i.(sellingRate := rate)
  }

  /** `updateItem`: the items with that id get the new value, every other
      item and every other field stays as it was. */
  function UpdateItem(basket: seq<BasketItem>, id: string, e: Edit): (r: seq<BasketItem>)
    ensures |r| == |basket|
    ensures forall k :: 0 <= k < |r| && basket[k].id != id ==> r[k] == basket[k]
    ensures forall k :: 0 <= k < |r| && basket[k].id == id ==>
              match e
              case SetQuantity(q) => r[k] == basket[k].(quantity := q)
              case SetSellingRate(rate) => r[k] == basket[k].(sellingRate := rate)
    ensures forall k :: 0 <= k < |r| ==> r[k].inventoryBatchId == basket[k].inventoryBatchId
  {
    Map(basket, (i: BasketItem) => if i.id == id then Apply(i, e) else i)
  }

  function NotId(id: string): BasketItem -> bool
  {
    (i: BasketItem) => i.id != id
  }

  /** `removeItem`: the items with that id go, the others stay in order. */
  function RemoveItem(basket: seq<BasketItem>, id: string): (r: seq<BasketItem>)
    ensures forall i :: i in r <==> i in basket && i.id != id
    ensures IsSubseq(r, basket)
    ensures DistinctKeys(basket, BatchOf) ==> DistinctKeys(r, BatchOf)
  {
    var r := Filter(basket, NotId(id));
    if DistinctKeys(basket, BatchOf) then
      FilterKeepsDistinct(basket, NotId(id), BatchOf);
      r
    else
      r
  }

  function HasStockId(batchId: string): InventoryBatch -> bool
  {
    (s: InventoryBatch) => s.id == batchId
  }

  /** The quantity on hand of a batch: that of the first stock entry with the
      id, or 0 when the batch is not in the stock list. `stock` is the page's
      list, `BillableStock` of what the backend returned, so every quantity
      in it is positive. */
  function Available(stock: seq<InventoryBatch>, batchId: string): (q: int)
    ensures (forall s :: s in stock ==> s.id != batchId) ==> q == 0
    ensures (exists s :: s in stock && s.id == batchId) ==>
              exists k :: 0 <= k < |stock| && stock[k].id == batchId && q == stock[k].qty &&
                forall j :: 0 <= j < k ==> stock[j].id != batchId
    ensures (forall s :: s in stock ==> s.qty > 0) ==> q >= 0
  {
    match FindFirst(stock, HasStockId(batchId))
    case None => 0
    case Some(s) => s.qty
  }

  /** Why the page refuses to save an order. */
  datatype SaveRejection = NonPositiveQuantity(productName: string) | InsufficientStock(productName: string, available: int)

  /** The test applied to one item. */
  function CheckItem(stock: seq<InventoryBatch>, i: BasketItem): (r: Option<SaveRejection>)
    ensures r.None? <==> 0 < i.quantity <= Available(stock, i.inventoryBatchId)
  {
    var available := Available(stock, i.inventoryBatchId);
    if i.quantity <= 0 then Some(NonPositiveQuantity(i.productName))
    else if i.quantity > available then Some(InsufficientStock(i.productName, available))
    else None
  }

  /** Every item asks for a positive quantity that the stock can cover. */
  predicate Sellable(stock: seq<InventoryBatch>, basket: seq<BasketItem>)
  {
    forall i :: i in basket ==> 0 < i.quantity <= Available(stock, i.inventoryBatchId)
  }

  /** The loop over the basket: the first item that fails stops the save. */
  function CheckItems(stock: seq<InventoryBatch>, basket: seq<BasketItem>): (r: Option<SaveRejection>)
    ensures r.None? <==> forall k :: 0 <= k < |basket| ==> CheckItem(stock, basket[k]).None?
    ensures r.Some? ==> exists k :: 0 <= k < |basket| && CheckItem(stock, basket[k]) == r &&
                          forall j :: 0 <= j < k ==> CheckItem(stock, basket[j]).None?
  {
    if |basket| == 0 then None
    else
      assert basket == [basket[0]] + basket[1..];
      match CheckItem(stock, basket[0])
      case Some(reason) => Some(reason)
      case None =>
        var r := CheckItems(stock, basket[1..]);
        if r.Some? then
          FirstFailureShift(basket, (i: BasketItem) => CheckItem(stock, i), r);
          r
        else
          r
  }

  /** A first failure in the tail of a list is the first failure of the
      list when its head passes. */
  lemma FirstFailureShift<T, R>(xs: seq<T>, check: T -> Option<R>, r: Option<R>)
    requires |xs| > 0 && check(xs[0]).None?
    requires exists k :: 0 <= k < |xs[1..]| && check(xs[1..][k]) == r &&
               forall j :: 0 <= j < k ==> check(xs[1..][j]).None?
    ensures exists k :: 0 <= k < |xs| && check(xs[k]) == r &&
              forall j :: 0 <= j < k ==> check(xs[j]).None?
  {
    var k :| 0 <= k < |xs[1..]| && check(xs[1..][k]) == r &&
             forall j :: 0 <= j < k ==> check(xs[1..][j]).None?;
    assert check(xs[k + 1]) == r;
  }

  /** The loop lets the order through exactly when every item is sellable. */
  lemma CheckItemsPass(stock: seq<InventoryBatch>, basket: seq<BasketItem>)
    ensures CheckItems(stock, basket).None? <==> Sellable(stock, basket)
  {
    if CheckItems(stock, basket).None? {
      forall i | i in basket
        ensures 0 < i.quantity <= Available(stock, i.inventoryBatchId)
      {
        var k :| 0 <= k < |basket| && basket[k] == i;
      }
    } else {
      var k :| 0 <= k < |basket| && CheckItem(stock, basket[k]).Some?;
      assert basket[k] in basket;
    }
  }

  /** The result of pressing "save": nothing happens, an alert refuses the
      order, or the order payload is sent. */
  datatype SaveOutcome = NotSaved | Refused(reason: SaveRejection) | Ready(order: SalesOrderPayload)

  /** `handleSaveOrder` up to the first request. The order number and
      today's date are inputs (the page takes them from the clock); a missing
      due date is `None`; `stock` is the page's list, `BillableStock` of what
      the backend returned. */
  function SaveOrder(customerId: string, dueDate: Option<Day>, basket: seq<BasketItem>, stock: seq<InventoryBatch>,
                     orderNumber: string, today: Day): (r: SaveOutcome)
    ensures customerId == "" || dueDate.None? || basket == [] ==> r == NotSaved
    ensures r.Ready? <==> customerId != "" && dueDate.Some? && basket != [] && Sellable(stock, basket)
    ensures r.Refused? <==> customerId != "" && dueDate.Some? && basket != [] && !Sellable(stock, basket)
    ensures r.Refused? ==> CheckItems(stock, basket) == Some(r.reason)
    ensures r.Ready? ==>
              && r.order.customerId == customerId
              && r.order.orderNumber == orderNumber
              && r.order.orderDate == today
              && r.order.dueDate == dueDate.value
              && r.order.paymentStatus == Pending
              && r.order.totalAmount == SumBy(basket, LineAmount)
              && r.order.totalAmount == r.order.taxableValue + r.order.sgstTotal + r.order.cgstTotal
              && r.order.taxableValue == ComputeTotals(basket).taxableValue
              && r.order.sgstTotal == ComputeTotals(basket).sgstTotal
              && r.order.cgstTotal == ComputeTotals(basket).cgstTotal
  {
    if customerId == "" || dueDate.None? || basket == [] then NotSaved
    else
      CheckItemsPass(stock, basket);
      match CheckItems(stock, basket)
      case Some(reason) => Refused(reason)
      case None =>
        var t := ComputeTotals(basket);
        LineAmountsSumToNet(basket);
        Ready(SalesOrderPayload(orderNumber, customerId, today, dueDate.value,
                                t.taxableValue, t.sgstTotal, t.cgstTotal, t.netPayable, Pending))
  }

  /** One item payload; `salesOrderId` is the id the backend gave the
      order. The expiry placeholder `-` goes back to null. */
  function ItemPayload(salesOrderId: string, i: BasketItem): (p: SalesOrderItemPayload)
    ensures p.expiryDate.None? <==> i.expiry == "-"
    ensures p.expiryDate.Some? ==> p.expiryDate.value == i.expiry
    ensures p.salesOrderId == salesOrderId && p.inventoryBatchId == i.inventoryBatchId
    ensures p.qty == i.quantity && p.rate == i.sellingRate
    ensures p.productId == i.productId && p.productName == i.productName && p.batchNo == i.batch
    ensures p.pack == i.pack && p.hsn == i.hsn && p.mrp == i.mrp && p.sgst == i.sgst && p.cgst == i.cgst
    ensures p.lineAmount == LineBase(i) + LineSgst(i) + LineCgst(i)
  {
    LineAmountSplits(i);
    SalesOrderItemPayload(
      salesOrderId,
      i.inventoryBatchId,
      i.productId,
      i.productName,
      i.batch,
      if i.expiry == "-" then None else Some(i.expiry),
      i.pack,
      i.hsn,
      i.quantity,
      i.mrp,
      i.sellingRate,
      i.sgst,
      i.cgst,
      LineAmount(i))
  }

  function LineAmountOf(p: SalesOrderItemPayload): real
  {
    p.lineAmount
  }

  /** `itemPayloads`: one payload per basket item, in basket order. */
  function ItemPayloads(salesOrderId: string, basket: seq<BasketItem>): (r: seq<SalesOrderItemPayload>)
    ensures |r| == |basket|
    ensures forall k :: 0 <= k < |r| ==> r[k] == ItemPayload(salesOrderId, basket[k])
  {
    Map(basket, (i: BasketItem) => ItemPayload(salesOrderId, i))
  }

  /** The item payloads add up to the order's total. */
  lemma {:induction false} ItemPayloadsSumToTotal(salesOrderId: string, basket: seq<BasketItem>)
    ensures SumBy(ItemPayloads(salesOrderId, basket), LineAmountOf) == ComputeTotals(basket).netPayable
  {
    LineAmountsSumToNet(basket);
    PayloadSum(salesOrderId, basket);
  }

  lemma {:induction false} PayloadSum(salesOrderId: string, basket: seq<BasketItem>)
    ensures SumBy(ItemPayloads(salesOrderId, basket), LineAmountOf) == SumBy(basket, LineAmount)
  {
    if |basket| > 0 {
      var init := basket[..|basket| - 1];
      PayloadSum(salesOrderId, init);
      var ps := ItemPayloads(salesOrderId, basket);
      assert ps[..|ps| - 1] == ItemPayloads(salesOrderId, init);
    }
  }

  /** The quantity update sent for one basket item. */
  datatype StockUpdate = StockUpdate(batchId: string, qty: int)

  /** `Math.max(0, availableQty - item.quantity)`. */
  function Decrement(stock: seq<InventoryBatch>, i: BasketItem): (u: StockUpdate)
    ensures u.batchId == i.inventoryBatchId
    ensures u.qty >= 0 && u.qty >= Available(stock, i.inventoryBatchId) - i.quantity
    ensures u.qty == 0 || u.qty == Available(stock, i.inventoryBatchId) - i.quantity
  {
    var available := Available(stock, i.inventoryBatchId);
    StockUpdate(i.inventoryBatchId, if available - i.quantity > 0 then available - i.quantity else 0)
  }

  function StockUpdates(stock: seq<InventoryBatch>, basket: seq<BasketItem>): (r: seq<StockUpdate>)
    ensures |r| == |basket|
    ensures forall k :: 0 <= k < |r| ==> r[k] == Decrement(stock, basket[k])
  {
    Map(basket, (i: BasketItem) => Decrement(stock, i))
  }

  /** Once the save checks have passed the clamp never bites: each batch
      goes down by exactly the quantity sold and stays non-negative. */
  lemma SaleDecrementsExactly(stock: seq<InventoryBatch>, basket: seq<BasketItem>)
    requires Sellable(stock, basket)
    ensures forall k :: 0 <= k < |basket| ==>
              StockUpdates(stock, basket)[k].qty == Available(stock, basket[k].inventoryBatchId) - basket[k].quantity &&
              0 <= StockUpdates(stock, basket)[k].qty < Available(stock, basket[k].inventoryBatchId)
  {
    forall k | 0 <= k < |basket|
      ensures 0 < basket[k].quantity <= Available(stock, basket[k].inventoryBatchId)
    {
      assert basket[k] in basket;
    }
  }
}

=== FILE: brands.dfy ===
/** The brand list (src/pages/Brand.tsx): search, the payload of the brand
    form, the list after a delete and the company name a row shows. */
module Brands {
  import opened Common
  import opened Lists
  import opened Records

  /** `company_name || companyName || fallback`. */
  function CompanyName(b: Brand, fallback: string): (s: string)
    ensures b.companyNameSnake.Some? && b.companyNameSnake.value != "" ==> s == b.companyNameSnake.value
    ensures (b.companyNameSnake.None? || b.companyNameSnake == Some("")) && b.companyNameCamel.Some? && b.companyNameCamel.value != "" ==>
              s == b.companyNameCamel.value
    ensures (b.companyNameSnake.None? || b.companyNameSnake == Some("")) && (b.companyNameCamel.None? || b.companyNameCamel == Some("")) ==>
              s == fallback
  {
    OrElse(b.companyNameSnake, OrElse(b.companyNameCamel, fallback))
  }

  /** Brand name or company, case-insensitively. */
  predicate BrandMatches(b: Brand, term: string)
  {
    MatchesCI(b.name, term) || MatchesCI(CompanyName(b, ""), term)
  }

  /** `filteredBrands`. */
  function FilteredBrands(brands: seq<Brand>, term: string): (r: seq<Brand>)
    ensures forall b :: b in r <==> b in brands && BrandMatches(b, term)
    ensures IsSubseq(r, brands)
  {
    Filter(brands, (b: Brand) => BrandMatches(b, term))
  }

  /** An empty search lists every brand. */
  lemma FilteredBrandsEmpty(brands: seq<Brand>)
    ensures FilteredBrands(brands, "") == brands
  {
    forall b | b in brands
      ensures BrandMatches(b, "")
    {
      EmptyQueryMatches(b.name);
    }
    FilterAll(brands, (b: Brand) => BrandMatches(b, ""));
  }

  /** A brand is found by any part of its own name, whatever the case of the
      letters typed. */
  lemma BrandFoundByOwnName(b: Brand)
    ensures BrandMatches(b, b.name) && BrandMatches(b, Lower(b.name))
    ensures forall q, i, j :: 0 <= i <= j <= |b.name| && Lower(q) == Lower(b.name[i..j]) ==> BrandMatches(b, q)
  {
    IncludesSelf(Lower(b.name));
    LowerIdempotent(b.name);
    forall q, i, j | 0 <= i <= j <= |b.name| && Lower(q) == Lower(b.name[i..j])
      ensures BrandMatches(b, q)
    {
      MatchesAnyPart(b.name, q, i, j);
    }
  }

  /** `handleSave`: the payload carries the two form fields as typed; the
      brand being edited is updated, otherwise one is created. */
  function SaveBrand(editing: Option<Brand>, name: string, companyName: string): (r: SaveRequest<BrandPayload>)
    ensures r.Update? <==> editing.Some?
    ensures r.Update? ==> r.id == editing.value.id
    ensures r.payload.name == name && r.payload.companyName == companyName
  {
    SaveTo(if editing.Some? then Some(editing.value.id) else None, BrandPayload(name, companyName))
  }

  function BrandId(b: Brand): string
  {
    b.id
  }

  /** `deleteBrand` after the backend has deleted the brand. */
  function DeleteBrand(brands: seq<Brand>, id: string, confirmed: bool): (r: seq<Brand>)
    ensures !confirmed ==> r == brands
    ensures confirmed ==> forall b :: b in r <==> b in brands && b.id != id
    ensures confirmed ==> forall b :: multiset(r)[b] == if b.id != id then multiset(brands)[b] else 0
    ensures IsSubseq(r, brands)
  {
    if confirmed then RemoveKey(brands, BrandId, id)
    else
      IsSubseqRefl(brands);
      brands
  }

  /** The company a row shows: `-` when both spellings are missing or empty,
      and otherwise the name the search looks at. */
  function ShownCompany(b: Brand): (s: string)
    ensures s != ""
    ensures CompanyName(b, "") == "" ==> s == "-"
    ensures CompanyName(b, "") != "" ==> s == CompanyName(b, "")
  {
    CompanyName(b, "-")
  }
}

=== FILE: collection.dfy ===
/** Receivables (src/pages/Collection.tsx): what each sales order has been
    paid, which orders still carry a balance, and the guard on recording a
    new customer collection. */
module Collection {
  import opened Common
  import opened Lists
  import opened Records
  import opened Ledger

  /** One value of `paymentStatusMap`. */
  datatype OrderStatus = OrderStatus(totalCollected: Money, totalAmount: Money, remainingAmount: Money)

  function AmountOf(c: CustomerCollection): real
  {
    c.amount
  }

  /** The collections against order `orderId`, filtered and summed from the
      left (a collection against another order adds nothing). */
  function CollectedFor(cols: seq<CustomerCollection>, orderId: string): Money
  {
    if |cols| == 0 then 0.0
    else
      var last := cols[|cols| - 1];
      CollectedFor(cols[..|cols| - 1], orderId) + (if last.salesOrderId == orderId then last.amount else 0.0)
  }

  /** The status the page computes for one order. */
  function StatusOf(o: SalesOrder, cols: seq<CustomerCollection>): OrderStatus
  {
    var collected := CollectedFor(cols, o.id);
    OrderStatus(collected, o.totalAmount, Outstanding(o.totalAmount, collected))
  }

  /** The position of the last order with id `id`, or -1. */
  function LastOrderIndex(orders: seq<SalesOrder>, id: string): (k: int)
    ensures -1 <= k < |orders|
    ensures k >= 0 ==> orders[k].id == id
    ensures forall j :: k < j < |orders| ==> orders[j].id != id
  {
    if |orders| == 0 then -1
    else if orders[|orders| - 1].id == id then |orders| - 1
    else LastOrderIndex(orders[..|orders| - 1], id)
  }

  /** `paymentStatusMap`: built with `forEach`, so when two orders share an
      id the later one overwrites the earlier. */
  function StatusMap(orders: seq<SalesOrder>, cols: seq<CustomerCollection>): (m: map<string, OrderStatus>)
    ensures forall id :: id in m <==> LastOrderIndex(orders, id) >= 0
    ensures forall id :: id in m ==> m[id] == StatusOf(orders[LastOrderIndex(orders, id)], cols)
  {
    if |orders| == 0 then map[]
    else
      var last := orders[|orders| - 1];
      var init := orders[..|orders| - 1];
      assert forall id :: id != last.id ==> LastOrderIndex(orders, id) == LastOrderIndex(init, id);
      StatusMap(init, cols)[last.id := StatusOf(last, cols)]
  }

  /** `getOrderPaymentStatus`: the status of the last order with that id,
      or all zeros for an id that is not a sales order. */
  function OrderPaymentStatus(orders: seq<SalesOrder>, cols: seq<CustomerCollection>, id: string): (r: OrderStatus)
    ensures (forall o :: o in orders ==> o.id != id) ==> r == OrderStatus(0.0, 0.0, 0.0)
    ensures LastOrderIndex(orders, id) >= 0 ==>
              r.totalAmount == orders[LastOrderIndex(orders, id)].totalAmount &&
              r.totalCollected == CollectedFor(cols, id)
    ensures r.remainingAmount >= 0.0
    ensures r.remainingAmount > 0.0 <==> r.totalCollected < r.totalAmount
    ensures r.remainingAmount == 0.0 || r.remainingAmount == r.totalAmount - r.totalCollected
  {
    var m := StatusMap(orders, cols);
    if id in m then m[id]
    else
      assert forall o :: o in orders ==> o.id != id by {
        forall o | o in orders
          ensures o.id != id
        {
          var j :| 0 <= j < |orders| && orders[j] == o;
        }
      }
      OrderStatus(0.0, 0.0, 0.0)
  }

  /** One element of `pendingOrdersWithBalance` before the balance filter. */
  function ToPending(orders: seq<SalesOrder>, cols: seq<CustomerCollection>, o: SalesOrder): (e: PendingEntry)
    ensures e.id == o.id && e.number == o.orderNumber && e.totalAmount == o.totalAmount
    ensures e.dueDate == o.dueDate.GetOr(o.orderDate)
    ensures e.partyName == OrElse(o.customerName, "Unknown Customer")
    ensures e.remainingAmount == OrderPaymentStatus(orders, cols, o.id).remainingAmount
  {
    PendingEntry(
      o.id,
      o.orderNumber,
      OrElse(o.customerId, ""),
      OrElse(o.customerName, "Unknown Customer"),
      o.totalAmount,
      o.dueDate.GetOr(o.orderDate),
      OrderPaymentStatus(orders, cols, o.id).remainingAmount)
  }

  /** Every order as a pending row, in order. */
  function Rows(orders: seq<SalesOrder>, cols: seq<CustomerCollection>): (rows: seq<PendingEntry>)
    ensures |rows| == |orders|
    ensures forall i :: 0 <= i < |orders| ==> rows[i] == ToPending(orders, cols, orders[i])
  {
    Map(orders, (o: SalesOrder) => ToPending(orders, cols, o))
  }

  function HasBalance(e: PendingEntry): bool
  {
    e.remainingAmount > 0.0
  }

  /** `pendingOrdersWithBalance`: the orders that still have something to
      collect, in their original order. */
  function PendingOrders(orders: seq<SalesOrder>, cols: seq<CustomerCollection>): (r: seq<PendingEntry>)
    ensures forall e :: e in r ==> e.remainingAmount > 0.0
    ensures forall k :: 0 <= k < |orders| ==>
              (ToPending(orders, cols, orders[k]) in r <==> OrderPaymentStatus(orders, cols, orders[k].id).remainingAmount > 0.0)
    ensures forall e :: e in r ==> exists k :: 0 <= k < |orders| && e == ToPending(orders, cols, orders[k])
    ensures IsSubseq(r, Rows(orders, cols))
  {
    var r := Filter(Rows(orders, cols), HasBalance);
    PendingMembers(orders, cols, r);
    r
  }

  lemma PendingMembers(orders: seq<SalesOrder>, cols: seq<CustomerCollection>, r: seq<PendingEntry>)
    requires forall e :: e in r <==> e in Rows(orders, cols) && HasBalance(e)
    ensures forall k :: 0 <= k < |orders| ==>
              (ToPending(orders, cols, orders[k]) in r <==> OrderPaymentStatus(orders, cols, orders[k].id).remainingAmount > 0.0)
    ensures forall e :: e in r ==> exists k :: 0 <= k < |orders| && e == ToPending(orders, cols, orders[k])
  {
    var rows := Rows(orders, cols);
    forall k | 0 <= k < |orders|
      ensures ToPending(orders, cols, orders[k]) in r <==> OrderPaymentStatus(orders, cols, orders[k].id).remainingAmount > 0.0
    {
      assert rows[k] in rows;
    }
    forall e | e in r
      ensures exists k :: 0 <= k < |orders| && e == ToPending(orders, cols, orders[k])
    {
      var k :| 0 <= k < |rows| && rows[k] == e;
    }
  }

  /** An order id has a row in the pending list exactly when its balance is
      positive. */
  lemma PendingHasId(orders: seq<SalesOrder>, cols: seq<CustomerCollection>, id: string)
    ensures (exists e :: e in PendingOrders(orders, cols) && e.id == id) <==>
            OrderPaymentStatus(orders, cols, id).remainingAmount > 0.0
  {
    var r := PendingOrders(orders, cols);
    var st := OrderPaymentStatus(orders, cols, id);
    if st.remainingAmount > 0.0 {
      var k := LastOrderIndex(orders, id);
      assert k >= 0;
      assert ToPending(orders, cols, orders[k]) in r;
    }
  }

  /** `filteredPendingOrders`: the search, the date buttons and the sort of
      the pending list applied to this page's pending orders. */
  function FilteredPendingOrders(orders: seq<SalesOrder>, cols: seq<CustomerCollection>, term: string, w: Window, nowMs: int): (r: seq<PendingEntry>)
    ensures forall e :: e in r ==> e in PendingOrders(orders, cols) && e.remainingAmount > 0.0
    ensures forall e :: e in r <==> e in PendingOrders(orders, cols) && SearchMatches(e, term) && InWindow(e.dueDate, nowMs, w)
    ensures forall e :: multiset(r)[e] ==
              if SearchMatches(e, term) && InWindow(e.dueDate, nowMs, w) then multiset(PendingOrders(orders, cols))[e] else 0
    ensures forall e :: e in r ==> SearchMatches(e, term)
    ensures w == Overdue ==> forall e :: e in r ==> e.dueDate < Today(nowMs)
    ensures w == DueSoon ==> forall e :: e in r ==> Today(nowMs) <= e.dueDate <= Today(nowMs) + 7
    ensures forall i, j :: 0 <= i < j < |r| ==> r[i].dueDate <= r[j].dueDate
    ensures term == "" && w == All ==> multiset(r) == multiset(PendingOrders(orders, cols))
  {
    var pending := PendingOrders(orders, cols);
    var r := FilterPending(pending, term, w, nowMs);
    assert forall e :: e in r ==> e in pending && e.remainingAmount > 0.0;
    r
  }

  /** The modal's fields; an empty amount box is `None`. */
  datatype CollectionForm = CollectionForm(
    date: Day,
    orderId: string,
    amount: Option<Money>,
    comment: string,
    paymentMode: CollectionMode)

  function HasId(id: string): PendingEntry -> bool
  {
    (e: PendingEntry) => e.id == id
  }

  /** `pendingOrdersWithBalance.find((o) => o.id === id)`. */
  function FindPending(orders: seq<SalesOrder>, cols: seq<CustomerCollection>, id: string): (r: Option<PendingEntry>)
    ensures r.Some? <==> OrderPaymentStatus(orders, cols, id).remainingAmount > 0.0
    ensures r.Some? ==> r.value.id == id && r.value in PendingOrders(orders, cols)
  {
    PendingHasId(orders, cols, id);
    FindFirst(PendingOrders(orders, cols), HasId(id))
  }

  /** `handleAddCollection` up to the request: the guards in the page's
      order and the payload it would send. */
  function AddCollection(orders: seq<SalesOrder>, cols: seq<CustomerCollection>, form: CollectionForm): (r: Outcome<CustomerCollectionPayload>)
    ensures form.orderId == "" || form.amount.None? ==> r.Ignored?
    ensures OrderPaymentStatus(orders, cols, form.orderId).remainingAmount == 0.0 ==> r.Ignored?
    ensures r.Accepted? <==>
              form.orderId != "" && form.amount.Some? &&
              0.0 < form.amount.value <= OrderPaymentStatus(orders, cols, form.orderId).remainingAmount
    ensures r.Rejected? <==>
              form.orderId != "" && form.amount.Some? &&
              OrderPaymentStatus(orders, cols, form.orderId).remainingAmount > 0.0 &&
              !(0.0 < form.amount.value <= OrderPaymentStatus(orders, cols, form.orderId).remainingAmount)
    ensures r.Rejected? ==>
              form.amount.Some? &&
              (r.reason == NotPositive <==> form.amount.value <= 0.0)
    ensures r.Rejected? && form.amount.value > OrderPaymentStatus(orders, cols, form.orderId).remainingAmount ==>
              r.reason == ExceedsRemaining(OrderPaymentStatus(orders, cols, form.orderId).remainingAmount)
    ensures r.Accepted? ==>
              var p := r.payload;
              var st := OrderPaymentStatus(orders, cols, form.orderId);
              && p.salesOrderId == form.orderId
              && p.amount == form.amount.value
              && p.paymentDate == form.date
              && p.paymentMode == form.paymentMode
              && p.comment == NullIfEmpty(form.comment)
              && (exists k :: 0 <= k < |orders| && orders[k].id == form.orderId &&
                    p.customerId == (if orders[k].customerId == Some("") then None else orders[k].customerId))
              && st.totalCollected + p.amount <= st.totalAmount
  {
    if form.orderId == "" || form.amount.None? then Ignored
    else
      match FindPending(orders, cols, form.orderId)
      case None => Ignored
      case Some(order) =>
        var amount := form.amount.value;
        var status := OrderPaymentStatus(orders, cols, order.id);
        match AmountGuard(amount, status.remainingAmount)
        case Some(reason) => Rejected(reason)
        case None =>
          Accepted(CustomerCollectionPayload(
            order.id,
            NullIfEmpty(order.partyId),
            form.date,
            amount,
            form.paymentMode,
            NullIfEmpty(form.comment)))
  }

  /** The collection the backend stores for an accepted payload. */
  function Recorded(id: string, p: CustomerCollectionPayload): CustomerCollection
  {
    CustomerCollection(id, p.salesOrderId, p.customerId, p.paymentDate, p.amount, p.paymentMode, p.comment)
  }

  /** No order has collected more than its total. */
  ghost predicate Balanced(orders: seq<SalesOrder>, cols: seq<CustomerCollection>)
  {
    forall id :: LastOrderIndex(orders, id) >= 0 ==>
      OrderPaymentStatus(orders, cols, id).totalCollected <= OrderPaymentStatus(orders, cols, id).totalAmount
  }

  lemma CollectedForSnoc(cols: seq<CustomerCollection>, c: CustomerCollection, id: string)
    ensures CollectedFor(cols + [c], id) == CollectedFor(cols, id) + (if c.salesOrderId == id then c.amount else 0.0)
  {
    assert (cols + [c])[..|cols|] == cols;
  }

  /** The ledger invariant: recording an accepted collection adds exactly its
      amount to its own order, leaves every other order's status unchanged,
      and never takes the order past its total. */
  lemma AcceptedCollectionKeepsBalance(orders: seq<SalesOrder>, cols: seq<CustomerCollection>, form: CollectionForm, newId: string)
    requires AddCollection(orders, cols, form).Accepted?
    ensures var p := AddCollection(orders, cols, form).payload;
            var after := cols + [Recorded(newId, p)];
            && OrderPaymentStatus(orders, after, p.salesOrderId).totalCollected
                 == OrderPaymentStatus(orders, cols, p.salesOrderId).totalCollected + p.amount
            && OrderPaymentStatus(orders, after, p.salesOrderId).totalCollected
                 <= OrderPaymentStatus(orders, after, p.salesOrderId).totalAmount
            && (forall id :: id != p.salesOrderId ==>
                  OrderPaymentStatus(orders, after, id) == OrderPaymentStatus(orders, cols, id))
  {
    var p := AddCollection(orders, cols, form).payload;
    var c := Recorded(newId, p);
    assert LastOrderIndex(orders, p.salesOrderId) >= 0;
    StatusSnoc(orders, cols, c, p.salesOrderId);
    forall id | id != p.salesOrderId
      ensures OrderPaymentStatus(orders, cols + [c], id) == OrderPaymentStatus(orders, cols, id)
    {
      StatusSnoc(orders, cols, c, id);
    }
  }

  /** Hence accepted collections keep the whole book balanced. */
  lemma AcceptedCollectionPreservesBalanced(orders: seq<SalesOrder>, cols: seq<CustomerCollection>, form: CollectionForm, newId: string)
    requires AddCollection(orders, cols, form).Accepted?
    requires Balanced(orders, cols)
    ensures Balanced(orders, cols + [Recorded(newId, AddCollection(orders, cols, form).payload)])
  {
    var p := AddCollection(orders, cols, form).payload;
    var after := cols + [Recorded(newId, p)];
    AcceptedCollectionKeepsBalance(orders, cols, form, newId);
    forall id | LastOrderIndex(orders, id) >= 0
      ensures OrderPaymentStatus(orders, after, id).totalCollected <= OrderPaymentStatus(orders, after, id).totalAmount
    {
      if id != p.salesOrderId {
        assert OrderPaymentStatus(orders, after, id) == OrderPaymentStatus(orders, cols, id);
      }
    }
  }

  /** Appending one collection changes the status of its own order only,
      and by exactly its amount. */
  lemma StatusSnoc(orders: seq<SalesOrder>, cols: seq<CustomerCollection>, c: CustomerCollection, id: string)
    ensures id != c.salesOrderId ==> OrderPaymentStatus(orders, cols + [c], id) == OrderPaymentStatus(orders, cols, id)
    ensures id == c.salesOrderId && LastOrderIndex(orders, id) >= 0 ==>
              OrderPaymentStatus(orders, cols + [c], id).totalCollected == OrderPaymentStatus(orders, cols, id).totalCollected + c.amount &&
              OrderPaymentStatus(orders, cols + [c], id).totalAmount == OrderPaymentStatus(orders, cols, id).totalAmount
  {
    CollectedForSnoc(cols, c, id);
    if LastOrderIndex(orders, id) < 0 {
      assert forall o :: o in orders ==> o.id != id by {
        forall o | o in orders
          ensures o.id != id
        {
          var j :| 0 <= j < |orders| && orders[j] == o;
        }
      }
    }
  }

  /** Settled orders owe nothing, so the pending list carries the whole
      outstanding balance of the books. */
  lemma PendingSumIsTotal(orders: seq<SalesOrder>, cols: seq<CustomerCollection>)
    ensures SumBy(PendingOrders(orders, cols), RemainingOf) == SumBy(Rows(orders, cols), RemainingOf)
  {
    var rows := Rows(orders, cols);
    assert forall e :: e in rows ==> e.remainingAmount >= 0.0;
    SumByFilter(rows, HasBalance, RemainingOf);
  }

  /** The summary cards of the page. */
  datatype CollectionStats = CollectionStats(totalPending: Money, totalCollected: Money, totalOverdue: Money, overdueCount: nat)

  /** `stats`: the pending and overdue balances of the pending list, and
      everything collected so far. */
  function Stats(orders: seq<SalesOrder>, cols: seq<CustomerCollection>, nowMs: int): (r: CollectionStats)
    ensures 0.0 <= r.totalOverdue <= r.totalPending
    ensures r.overdueCount <= |PendingOrders(orders, cols)|
    ensures r.totalOverdue == SumBy(Filter(PendingOrders(orders, cols), Late(nowMs)), RemainingOf)
    ensures r.overdueCount == |Filter(PendingOrders(orders, cols), Late(nowMs))|
    ensures r.totalPending == SumBy(Rows(orders, cols), RemainingOf)
    ensures r.totalCollected == SumBy(cols, AmountOf)
  {
    var s := Summarize(PendingOrders(orders, cols), nowMs);
    PendingSumIsTotal(orders, cols);
    CollectionStats(s.totalOutstanding, SumBy(cols, AmountOf), s.totalOverdue, s.overdueCount)
  }
}

=== FILE: colors.dfy ===
/** The brand colour of the product badges (src/utils/colors.ts): a string
    hash over the UTF-16 code units of the brand name, folded from 0 with
    32-bit shifts as JavaScript performs them, picks one of eight schemes. */
module Colors {
  import opened Common

  /** The eight colour schemes, in the order of the source's table. */
  datatype Scheme = Emerald | Blue | Indigo | Purple | Rose | Amber | Cyan | Orange

  const Schemes: seq<Scheme> := [Emerald, Blue, Indigo, Purple, Rose, Amber, Cyan, Orange]

  const TwoTo31: int := 0x8000_0000
  const TwoTo32: int := 0x1_0000_0000

  /** ECMAScript ToInt32 of an integral Number: the value modulo 2^32, read
      as a signed 32-bit integer. */
  function ToInt32(x: int): (r: int)
    ensures -TwoTo31 <= r < TwoTo31
    ensures (x - r) % TwoTo32 == 0
    ensures -TwoTo31 <= x < TwoTo31 ==> r == x
  {
    var m := x % TwoTo32;
    assert x == (x / TwoTo32) * TwoTo32 + m;
    if m >= TwoTo31 then
      assert x - (m - TwoTo32) == (x / TwoTo32 + 1) * TwoTo32;
      m - TwoTo32
    else
      m
  }

  /** `charCodeAt` sees UTF-16 code units: one for a character of the basic
      plane, a surrogate pair for any other. */
  function CodeUnits(c: char): (u: seq<int>)
    ensures 1 <= |u| <= 2
    ensures forall k :: 0 <= k < |u| ==> 0 <= u[k] < 0x10000
    ensures c as int < 0x10000 <==> u == [c as int]
  {
    var v := c as int;
    if v < 0x10000 then [v]
    else [0xD800 + (v - 0x10000) / 0x400, 0xDC00 + (v - 0x10000) % 0x400]
  }

  /** The UTF-16 code units of a string, in order. */
  function Utf16(s: string): (u: seq<int>)
    ensures |s| <= |u| <= 2 * |s|
    ensures forall k :: 0 <= k < |u| ==> 0 <= u[k] < 0x10000
  {
    if |s| == 0 then []
    else Utf16(s[..|s| - 1]) + CodeUnits(s[|s| - 1])
  }

  /** `y` is a whole number of 2^32 steps. */
  lemma MultipleOfTwoTo32(y: int)
    requires y % TwoTo32 == 0
    ensures y == (y / TwoTo32) * TwoTo32
  {
  }

  lemma ScaledMultiple(q: int, c: int)
    ensures (c * q * TwoTo32) % TwoTo32 == 0
  {
    assert c * q * TwoTo32 == (c * q) * TwoTo32;
  }

  /** One turn of the loop: `hash = code + ((hash << 5) - hash)`. The shift
      works on 32 bits; the subtraction and the addition do not. Modulo 2^32
      the turn is `31 * hash + code`, and it moves the hash away from `code
      - hash` by less than 2^31. */
  function Step(h: int, code: int): (r: int)
    ensures (r - (31 * h + code)) % TwoTo32 == 0
    ensures -TwoTo31 <= r - code + h < TwoTo31
  {
    var a := ToInt32(h);
    var t := ToInt32(a * 32);
    MultipleOfTwoTo32(h - a);
    MultipleOfTwoTo32(a * 32 - t);
    var q1 := (h - a) / TwoTo32;
    var q2 := (a * 32 - t) / TwoTo32;
    assert t - 32 * h == (-q2 - 32 * q1) * TwoTo32;
    ScaledMultiple(-q2 - 32 * q1, 1);
    code + (t - h)
  }

  /** The hash of a sequence of code units, folded from the left from 0.
      Each turn moves it by less than 2^31 + 2^16, so after `n` code units
      it is at most `n * (2^31 + 2^16)` in size. */
  function Hash(units: seq<int>): (h: int)
    ensures (forall k :: 0 <= k < |units| ==> 0 <= units[k] < 0x10000) ==>
              -|units| * (TwoTo31 + 0x10000) <= h <= |units| * (TwoTo31 + 0x10000)
  {
    if |units| == 0 then 0
    else
      var init := units[..|units| - 1];
      assert forall k :: 0 <= k < |init| ==> init[k] == units[k];
      Step(Hash(init), units[|units| - 1])
  }

  /** The polynomial string hash `sum of units[i] * 31^(n-1-i)`, computed
      without any wrap-around: the reference the loop is measured against. */
  function PolyHash(units: seq<int>): int
  {
    if |units| == 0 then 0
    else 31 * PolyHash(units[..|units| - 1]) + units[|units| - 1]
  }

  /** The loop computes the polynomial string hash modulo 2^32 (the value of
      Java's `String.hashCode` once read as 32 bits); it keeps more high bits
      than that because only the shift wraps. */
  lemma {:induction false} HashIsPolyHashMod32(units: seq<int>)
    ensures (Hash(units) - PolyHash(units)) % TwoTo32 == 0
  {
    if |units| > 0 {
      var init := units[..|units| - 1];
      var c := units[|units| - 1];
      HashIsPolyHashMod32(init);
      MultipleOfTwoTo32(Hash(init) - PolyHash(init));
      var q := (Hash(init) - PolyHash(init)) / TwoTo32;
      var r := Step(Hash(init), c);
      MultipleOfTwoTo32(r - (31 * Hash(init) + c));
      var q' := (r - (31 * Hash(init) + c)) / TwoTo32;
      assert r - PolyHash(units) == (q' + 31 * q) * TwoTo32;
      ScaledMultiple(q' + 31 * q, 1);
    }
  }

  /** Below 2^21 code units the hash stays under 2^53 in size, so the double
      arithmetic of the source is exact. */
  lemma HashBound(units: seq<int>)
    requires forall k :: 0 <= k < |units| ==> 0 <= units[k] < 0x10000
    requires |units| <= 0x20_0000
    ensures -0x20_0000_0000_0000 < Hash(units) < 0x20_0000_0000_0000
  {
    var n := |units|;
    assert n * (TwoTo31 + 0x10000) <= 0x20_0000 * (TwoTo31 + 0x10000);
  }

  function Abs(x: int): nat
  {
    if x < 0 then -x else x
  }

  /** `Math.abs(hash) % colorSchemes.length`. */
  function SchemeIndex(h: int): (i: int)
    ensures 0 <= i < |Schemes|
    ensures h % 8 == 0 ==> i == 0
  {
    Abs(h) % |Schemes|
  }

  /** `getBrandColorStyles`: a missing name hashes as `Generic`, which
      selects orange, while the empty name hashes to 0 and selects emerald. */
  function BrandColour(brandName: Option<string>): (s: Scheme)
    ensures brandName.None? ==> s == Orange
    ensures brandName == Some("") ==> s == Emerald
  {
    GenericIsOrange();
    EmptyIsEmerald();
    Schemes[SchemeIndex(Hash(Utf16(brandName.GetOr("Generic"))))]
  }

  /** The default parameter: leaving the name out is the same as passing
      `Generic`. */
  lemma MissingNameIsGeneric()
    ensures BrandColour(None) == BrandColour(Some("Generic"))
  {
  }

  /** The loop of the source, turn by turn; it computes the fold `Hash`. */
  method BrandColourLoop(brandName: Option<string>) returns (s: Scheme)
    ensures s == BrandColour(brandName)
  {
    var units := Utf16(brandName.GetOr("Generic"));
    var hash := 0;
    var i := 0;
    while i < |units|
      invariant 0 <= i <= |units|
      invariant hash == Hash(units[..i])
    {
      assert units[..i + 1][..i] == units[..i];
      hash := units[i] + (ToInt32(ToInt32(hash) * 32) - hash);
      i := i + 1;
    }
    assert units[..|units|] == units;
    s := Schemes[Abs(hash) % |Schemes|];
  }

  /** The empty name hashes to 0 and gets the first scheme. */
  lemma EmptyIsEmerald()
    ensures Hash(Utf16("")) == 0
    ensures Schemes[SchemeIndex(Hash(Utf16("")))] == Emerald
  {
    assert Utf16("") == [];
  }

  /** `Generic` is plain ASCII: one code unit per letter. */
  lemma Utf16Generic()
    ensures Utf16("Generic") == [71, 101, 110, 101, 114, 105, 99]
  {
    assert "Generic"[..6] == "Generi";
    assert "Generi"[..5] == "Gener";
    assert "Gener"[..4] == "Gene";
    assert "Gene"[..3] == "Gen";
    assert "Gen"[..2] == "Ge";
    assert "Ge"[..1] == "G";
    assert "G"[..0] == "";
  }

  /** One turn of the fold, with the value it gives. */
  lemma HashSnoc(units: seq<int>, code: int, h: int, shifted: int, h': int)
    requires Hash(units) == h
    requires ToInt32(ToInt32(h) * 32) == shifted
    requires h' == code + (shifted - h)
    ensures Hash(units + [code]) == h'
  {
    assert (units + [code])[..|units|] == units;
  }

  /** The seven turns of the loop on `Generic`; the sixth leaves the 32-bit
      range, which the source's double arithmetic allows. */
  lemma HashGeneric()
    ensures Hash([71, 101, 110, 101, 114, 105, 99]) == 1584505271
  {
    var u0: seq<int> := [];
    assert Hash(u0) == 0;
    HashSnoc(u0, 71, 0, 0, 71);
    var u1 := u0 + [71];
    HashSnoc(u1, 101, 71, 2272, 2302);
    var u2 := u1 + [101];
    HashSnoc(u2, 110, 2302, 73664, 71472);
    var u3 := u2 + [110];
    HashSnoc(u3, 101, 71472, 2287104, 2215733);
    var u4 := u3 + [101];
    HashSnoc(u4, 114, 2215733, 70903456, 68687837);
    var u5 := u4 + [114];
    HashSnoc(u5, 105, 68687837, -2096956512, -2165644244);
    var u6 := u5 + [105];
    HashSnoc(u6, 99, -2165644244, -581139072, 1584505271);
    assert u6 + [99] == [71, 101, 110, 101, 114, 105, 99];
  }

  /** The hash 1584505271 leaves remainder 7 and takes the last scheme. */
  lemma GenericHashIsOrange()
    ensures Schemes[SchemeIndex(1584505271)] == Orange
  {
    assert 1584505271 == 8 * 198063158 + 7;
    assert SchemeIndex(1584505271) == 7;
  }

  /** `Generic` hashes to 1584505271, which selects the last scheme. */
  lemma GenericIsOrange()
    ensures Hash(Utf16("Generic")) == 1584505271
    ensures Schemes[SchemeIndex(Hash(Utf16("Generic")))] == Orange
  {
    Utf16Generic();
    HashGeneric();
    GenericHashIsOrange();
  }
}

=== FILE: common.dfy ===
/** Shared vocabulary: optional values, money and day numbers, and the
    JavaScript string operations the pages rely on (truthiness of strings,
    `||` fallbacks, `toLowerCase`, `includes`). */
module Common {

  /** A field that may be missing (`undefined` or `null` in the records). */
  datatype Option<+T> = None | Some(value: T) {
    /** `x ?? d`: only a missing value falls back to the default. */
    function GetOr(default: T): T
    {
      match this
      case Some(v) => v
      case None => default
    }
  }

  /** Amounts of money are exact reals; rounding to paise is left to display. */
  type Money = real

  /** Calendar dates are day numbers (days since some fixed epoch). */
  type Day = int

  /** `a || b` where `a` is a possibly-missing string: a missing or empty
      string is falsy in JavaScript and falls through to `b`. */
  function OrElse(a: Option<string>, b: string): string
  {
    if a.Some? && a.value != "" then a.value else b
  }

  /** `(s as string) || null`: an empty form field becomes null. */
  function NullIfEmpty(s: string): Option<string>
  {
    if s == "" then None else Some(s)
  }

  /** An empty field sent as null reads back as the empty string, and any
      other field comes back unchanged. */
  lemma NullIfEmptyRoundTrip(s: string)
    ensures OrElse(NullIfEmpty(s), "") == s
    ensures NullIfEmpty(s).None? <==> s == ""
  {
  }

  /** What a form's save handler sends: an update of the record being
      edited, or a new record. */
  datatype SaveRequest<P> = Update(id: string, payload: P) | Create(payload: P)

  /** `if (editing) update(editing.id, payload) else create(payload)`. */
  function SaveTo<P>(editingId: Option<string>, payload: P): (r: SaveRequest<P>)
    ensures r.payload == payload
    ensures r.Update? <==> editingId.Some?
    ensures r.Update? ==> r.id == editingId.value
  {
    match editingId
    case Some(id) => Update(id, payload)
    case None => Create(payload)
  }

  /** `String.prototype.toLowerCase` on one character (ASCII letters only). */
  function LowerChar(c: char): char
  {
    if 'A' <= c <= 'Z' then (c as int + 32) as char else c
  }

  function Lower(s: string): (r: string)
    ensures |r| == |s|
    ensures forall i :: 0 <= i < |s| ==> r[i] == LowerChar(s[i])
  {
    seq(|s|, i requires 0 <= i < |s| => LowerChar(s[i]))
  }

  predicate StartsWith(s: string, prefix: string)
  {
    |prefix| <= |s| && s[..|prefix|] == prefix
  }

  /** `hay.includes(needle)`, by scanning the start positions of `hay`. */
  predicate Includes(hay: string, needle: string)
    decreases |hay|
  {
    StartsWith(hay, needle) || (|hay| > 0 && Includes(hay[1..], needle))
  }

  /** `needle` occurs in `hay` starting at position `i`. */
  ghost predicate OccursAt(hay: string, needle: string, i: int)
  {
    0 <= i && i + |needle| <= |hay| && hay[i..i + |needle|] == needle
  }

  /** The scanning definition of `includes` agrees with the positional one:
      the needle is found exactly when it occurs at some position. */
  lemma {:induction false} IncludesIff(hay: string, needle: string)
    ensures Includes(hay, needle) <==> exists i :: OccursAt(hay, needle, i)
    decreases |hay|
  {
    if exists i :: OccursAt(hay, needle, i) {
      var i :| OccursAt(hay, needle, i);
      if i == 0 {
        assert StartsWith(hay, needle);
      } else {
        assert hay[1..][i - 1..i - 1 + |needle|] == hay[i..i + |needle|];
        assert OccursAt(hay[1..], needle, i - 1);
        IncludesIff(hay[1..], needle);
      }
    }
    if Includes(hay, needle) {
      if StartsWith(hay, needle) {
        assert OccursAt(hay, needle, 0);
      } else {
        IncludesIff(hay[1..], needle);
        var i :| OccursAt(hay[1..], needle, i);
        assert hay[1..][i..i + |needle|] == hay[i + 1..i + 1 + |needle|];
        assert OccursAt(hay, needle, i + 1);
      }
    }
  }

  /** Every string includes the empty string. */
  lemma IncludesEmpty(hay: string)
    ensures Includes(hay, "")
  {
    assert StartsWith(hay, "");
  }

  /** Every string includes itself. */
  lemma IncludesSelf(s: string)
    ensures Includes(s, s)
  {
    assert StartsWith(s, s);
  }

  /** `field.toLowerCase().includes(query.toLowerCase())`. */
  predicate MatchesCI(field: string, query: string)
  {
    Includes(Lower(field), Lower(query))
  }

  /** A query that lower-cases to any slice of the lower-cased field matches
      it, whatever the case of the letters typed. */
  lemma MatchesAnyPart(field: string, query: string, i: int, j: int)
    requires 0 <= i <= j <= |field|
    requires Lower(query) == Lower(field[i..j])
    ensures MatchesCI(field, query)
  {
    assert Lower(field)[i..j] == Lower(field[i..j]);
    assert OccursAt(Lower(field), Lower(query), i);
    IncludesIff(Lower(field), Lower(query));
  }

  /** An empty search term matches every field. */
  lemma EmptyQueryMatches(field: string)
    ensures MatchesCI(field, "")
  {
    assert Lower("") == "";
    IncludesEmpty(Lower(field));
  }

  /** Lower-casing is idempotent, so matching is insensitive to the case of
      the query's ASCII letters. */
  lemma {:induction false} LowerIdempotent(s: string)
    ensures Lower(Lower(s)) == Lower(s)
  {
    forall i | 0 <= i < |s|
      ensures Lower(Lower(s))[i] == Lower(s)[i]
    {
      var c := s[i];
      if 'A' <= c <= 'Z' {
        assert LowerChar(c) == (c as int + 32) as char;
      }
    }
  }
}

=== FILE: customers.dfy ===
/** The customer directory (src/pages/Customer.tsx), a list kept in the
    page's own state: search, add or edit, and delete. */
module Customers {
  import opened Common
  import opened Lists

  /** The page's own customer record. */
  datatype Customer = Customer(
    id: string,
    name: string,
    mobileNo: string,
    isActive: bool,
    address: string,
    city: string,
    currentBalance: Money)

  /** Name or city case-insensitively, or the mobile number as typed. */
  predicate CustomerMatches(c: Customer, term: string)
  {
    MatchesCI(c.name, term) || Includes(c.mobileNo, term) || MatchesCI(c.city, term)
  }

  /** `filteredCustomers`. */
  function FilteredCustomers(customers: seq<Customer>, term: string): (r: seq<Customer>)
    ensures forall c :: c in r <==> c in customers && CustomerMatches(c, term)
    ensures IsSubseq(r, customers)
  {
    Filter(customers, (c: Customer) => CustomerMatches(c, term))
  }

  /** An empty search lists every customer. */
  lemma FilteredCustomersEmpty(customers: seq<Customer>)
    ensures FilteredCustomers(customers, "") == customers
  {
    forall c | c in customers
      ensures CustomerMatches(c, "")
    {
      EmptyQueryMatches(c.name);
    }
    FilterAll(customers, (c: Customer) => CustomerMatches(c, ""));
  }

  /** The fields of the customer form; `isActive` is the checkbox entry,
      present (as `on`) only when ticked. */
  datatype CustomerForm = CustomerForm(
    name: string,
    mobileNo: string,
    address: string,
    city: string,
    currentBalance: Money,
    isActive: Option<string>)

  /** `newCustomer`: the record being edited keeps its id (an empty one is
      replaced by the fresh id, as `||` does); a new customer gets the fresh
      id. */
  function NewCustomer(editing: Option<Customer>, form: CustomerForm, freshId: string): (c: Customer)
    ensures editing.Some? && editing.value.id != "" ==> c.id == editing.value.id
    ensures editing.None? || editing.value.id == "" ==> c.id == freshId
    ensures c.isActive <==> form.isActive == Some("on")
    ensures c.name == form.name && c.mobileNo == form.mobileNo && c.city == form.city
    ensures c.address == form.address && c.currentBalance == form.currentBalance
  {
    var id := if editing.Some? && editing.value.id != "" then editing.value.id else freshId;
    Customer(id, form.name, form.mobileNo, form.isActive == Some("on"), form.address, form.city, form.currentBalance)
  }

  /** `handleSave`: an edit replaces every record that has the edited id
      and leaves the others in place; an add appends the new record. */
  function SaveCustomer(customers: seq<Customer>, editing: Option<Customer>, form: CustomerForm, freshId: string): (r: seq<Customer>)
    ensures editing.None? ==>
              |r| == |customers| + 1 && r[..|customers|] == customers &&
              r[|customers|].id == freshId && r[|customers|] == NewCustomer(editing, form, freshId)
    ensures editing.Some? ==> |r| == |customers|
    ensures editing.Some? ==> forall k :: 0 <= k < |customers| ==>
              r[k] == if customers[k].id == editing.value.id then NewCustomer(editing, form, freshId) else customers[k]
  {
    var c := NewCustomer(editing, form, freshId);
    match editing
    case None => customers + [c]
    case Some(e) => Map(customers, (x: Customer) => if x.id == e.id then c else x)
  }

  function IdOf(c: Customer): string
  {
    c.id
  }

  /** Ids stay unique: an edit keeps every id where it was, and an add uses
      an id that no customer has yet. */
  lemma SaveKeepsIdsDistinct(customers: seq<Customer>, editing: Option<Customer>, form: CustomerForm, freshId: string)
    requires DistinctKeys(customers, IdOf)
    requires editing.Some? ==> editing.value.id != ""
    requires editing.None? ==> forall c :: c in customers ==> c.id != freshId
    ensures DistinctKeys(SaveCustomer(customers, editing, form, freshId), IdOf)
  {
    var r := SaveCustomer(customers, editing, form, freshId);
    if editing.Some? {
      assert forall k :: 0 <= k < |r| ==> r[k].id == customers[k].id;
    } else {
      forall i, j | 0 <= i < j < |r|
        ensures IdOf(r[i]) != IdOf(r[j])
      {
        if j == |customers| {
          assert r[i] == customers[i] && customers[i] in customers;
        } else {
          assert r[i] == customers[i] && r[j] == customers[j];
        }
      }
    }
  }

  /** `deleteCustomer`: when confirmed, every record with that id goes and
      the others keep their order; otherwise nothing changes. */
  function DeleteCustomer(customers: seq<Customer>, id: string, confirmed: bool): (r: seq<Customer>)
    ensures !confirmed ==> r == customers
    ensures confirmed ==> forall c :: c in r <==> c in customers && c.id != id
    ensures confirmed ==> forall c :: multiset(r)[c] == if c.id != id then multiset(customers)[c] else 0
    ensures IsSubseq(r, customers)
  {
    if confirmed then RemoveKey(customers, IdOf, id)
    else
      IsSubseqRefl(customers);
      customers
  }
}

=== FILE: dealer_payment.dfy ===
/** Payables (src/pages/DealerPayment.tsx): what each purchase order has
    been paid, which purchase orders are still payable, the guard on a new
    dealer payment and the payment history in date order. */
module DealerPayments {
  import opened Common
  import opened Lists
  import opened Records
  import opened Ledger

  /** The value `getPurchaseOrderPaymentStatus` returns. */
  datatype PurchaseOrderStatus = PurchaseOrderStatus(totalPaid: Money, remainingAmount: Money, totalAmount: Money)

  function AmountOf(p: DealerPayment): real
  {
    p.amount
  }

  /** The payments against purchase order `poId`, filtered and summed from
      the left (a payment against another order adds nothing). */
  function PaidFor(payments: seq<DealerPayment>, poId: string): Money
  {
    if |payments| == 0 then 0.0
    else
      var last := payments[|payments| - 1];
      PaidFor(payments[..|payments| - 1], poId) + (if last.purchaseOrderId == poId then last.amount else 0.0)
  }

  lemma PaidForSnoc(payments: seq<DealerPayment>, p: DealerPayment, poId: string)
    ensures PaidFor(payments + [p], poId) == PaidFor(payments, poId) + (if p.purchaseOrderId == poId then p.amount else 0.0)
  {
    assert (payments + [p])[..|payments|] == payments;
  }

  /** The position of the first purchase order with id `id`, or -1
      (`purchaseOrders.find`). */
  function FirstOrderIndex(pos: seq<PurchaseOrder>, id: string): (k: int)
    ensures -1 <= k < |pos|
    ensures k >= 0 ==> pos[k].id == id
    ensures forall j :: 0 <= j < |pos| && (k < 0 || j < k) ==> pos[j].id != id
  {
    if |pos| == 0 then -1
    else if pos[0].id == id then 0
    else
      var k := FirstOrderIndex(pos[1..], id);
      if k < 0 then -1 else k + 1
  }

  /** `getPurchaseOrderPaymentStatus`: the first purchase order with that id
      decides the total; an unknown id gives all zeros. */
  function PurchaseOrderPaymentStatus(pos: seq<PurchaseOrder>, payments: seq<DealerPayment>, id: string): (r: PurchaseOrderStatus)
    ensures (forall po :: po in pos ==> po.id != id) ==> r == PurchaseOrderStatus(0.0, 0.0, 0.0)
    ensures FirstOrderIndex(pos, id) >= 0 ==>
              r.totalAmount == pos[FirstOrderIndex(pos, id)].totalAmount.GetOr(0.0) &&
              r.totalPaid == PaidFor(payments, id)
    ensures r.remainingAmount >= 0.0
    ensures r.remainingAmount > 0.0 <==> r.totalPaid < r.totalAmount
    ensures r.remainingAmount == 0.0 || r.remainingAmount == r.totalAmount - r.totalPaid
  {
    var k := FirstOrderIndex(pos, id);
    if k < 0 then
      assert forall po :: po in pos ==> po.id != id by {
        forall po | po in pos
          ensures po.id != id
        {
          var j :| 0 <= j < |pos| && pos[j] == po;
        }
      }
      PurchaseOrderStatus(0.0, 0.0, 0.0)
    else
      var paid := PaidFor(payments, id);
      var total := pos[k].totalAmount.GetOr(0.0);
      PurchaseOrderStatus(paid, Outstanding(total, paid), total)
  }

  /** One element of `pendingPurchaseOrdersWithBalance` before the balance
      filter; the due date falls back to the order date and then to today. */
  function ToPending(pos: seq<PurchaseOrder>, payments: seq<DealerPayment>, nowMs: int, po: PurchaseOrder): (e: PendingEntry)
    ensures e.id == po.id && e.number == po.purchaseOrderNumber
    ensures e.partyId == OrElse(po.dealerId, "")
    ensures e.partyName == OrElse(po.dealerCompanyName, "Unknown Dealer") && e.partyName != ""
    ensures e.totalAmount == po.totalAmount.GetOr(0.0)
    ensures e.dueDate == (if po.dueDate.Some? then po.dueDate.value
                          else if po.orderDate.Some? then po.orderDate.value
                          else Today(nowMs))
    ensures e.remainingAmount == PurchaseOrderPaymentStatus(pos, payments, po.id).remainingAmount
  {
    PendingEntry(
      po.id,
      po.purchaseOrderNumber,
      OrElse(po.dealerId, ""),
      OrElse(po.dealerCompanyName, "Unknown Dealer"),
      po.totalAmount.GetOr(0.0),
      po.dueDate.GetOr(po.orderDate.GetOr(Today(nowMs))),
      PurchaseOrderPaymentStatus(pos, payments, po.id).remainingAmount)
  }

  function Rows(pos: seq<PurchaseOrder>, payments: seq<DealerPayment>, nowMs: int): (rows: seq<PendingEntry>)
    ensures |rows| == |pos|
    ensures forall i :: 0 <= i < |pos| ==> rows[i] == ToPending(pos, payments, nowMs, pos[i])
  {
    Map(pos, (po: PurchaseOrder) => ToPending(pos, payments, nowMs, po))
  }

  function HasBalance(e: PendingEntry): bool
  {
    e.remainingAmount > 0.0
  }

  /** `pendingPurchaseOrdersWithBalance`: the purchase orders still payable,
      in their original order. */
  function PendingPurchaseOrders(pos: seq<PurchaseOrder>, payments: seq<DealerPayment>, nowMs: int): (r: seq<PendingEntry>)
    ensures forall e :: e in r ==> e.remainingAmount > 0.0
    ensures forall k :: 0 <= k < |pos| ==>
              (ToPending(pos, payments, nowMs, pos[k]) in r <==>
               PurchaseOrderPaymentStatus(pos, payments, pos[k].id).remainingAmount > 0.0)
    ensures forall e :: e in r ==> exists k :: 0 <= k < |pos| && e == ToPending(pos, payments, nowMs, pos[k])
    ensures IsSubseq(r, Rows(pos, payments, nowMs))
  {
    var r := Filter(Rows(pos, payments, nowMs), HasBalance);
    PendingMembers(pos, payments, nowMs, r);
    r
  }

  lemma PendingMembers(pos: seq<PurchaseOrder>, payments: seq<DealerPayment>, nowMs: int, r: seq<PendingEntry>)
    requires forall e :: e in r <==> e in Rows(pos, payments, nowMs) && HasBalance(e)
    ensures forall k :: 0 <= k < |pos| ==>
              (ToPending(pos, payments, nowMs, pos[k]) in r <==>
               PurchaseOrderPaymentStatus(pos, payments, pos[k].id).remainingAmount > 0.0)
    ensures forall e :: e in r ==> exists k :: 0 <= k < |pos| && e == ToPending(pos, payments, nowMs, pos[k])
  {
    var rows := Rows(pos, payments, nowMs);
    forall k | 0 <= k < |pos|
      ensures ToPending(pos, payments, nowMs, pos[k]) in r <==>
              PurchaseOrderPaymentStatus(pos, payments, pos[k].id).remainingAmount > 0.0
    {
      assert rows[k] in rows;
    }
    forall e | e in r
      ensures exists k :: 0 <= k < |pos| && e == ToPending(pos, payments, nowMs, pos[k])
    {
      var k :| 0 <= k < |rows| && rows[k] == e;
    }
  }

  function HasId(id: string): PendingEntry -> bool
  {
    (e: PendingEntry) => e.id == id
  }

  /** A purchase order appears in the pending list exactly when it still
      has something to pay. */
  lemma PendingHasId(pos: seq<PurchaseOrder>, payments: seq<DealerPayment>, nowMs: int, id: string)
    ensures (exists e :: e in PendingPurchaseOrders(pos, payments, nowMs) && e.id == id) <==>
            PurchaseOrderPaymentStatus(pos, payments, id).remainingAmount > 0.0
  {
    var r := PendingPurchaseOrders(pos, payments, nowMs);
    var st := PurchaseOrderPaymentStatus(pos, payments, id);
    if st.remainingAmount > 0.0 {
      var k := FirstOrderIndex(pos, id);
      assert k >= 0;
      assert ToPending(pos, payments, nowMs, pos[k]) in r;
    }
  }

  /** `pendingPurchaseOrdersWithBalance.find((po) => po.id === id)`: found
      exactly when the purchase order still has something to pay. */
  function FindPending(pos: seq<PurchaseOrder>, payments: seq<DealerPayment>, nowMs: int, id: string): (r: Option<PendingEntry>)
    ensures r.Some? <==> PurchaseOrderPaymentStatus(pos, payments, id).remainingAmount > 0.0
    ensures r.Some? ==> r.value.id == id && r.value in PendingPurchaseOrders(pos, payments, nowMs)
  {
    PendingHasId(pos, payments, nowMs, id);
    FindFirst(PendingPurchaseOrders(pos, payments, nowMs), HasId(id))
  }

  /** `filteredPendingPurchaseOrders`: the search, the date buttons and the
      sort of the pending list applied to this page's payable orders. */
  function FilteredPendingPurchaseOrders(pos: seq<PurchaseOrder>, payments: seq<DealerPayment>, term: string, w: Window, nowMs: int): (r: seq<PendingEntry>)
    ensures forall e :: e in r ==> e in PendingPurchaseOrders(pos, payments, nowMs) && e.remainingAmount > 0.0
    ensures forall e :: e in r <==>
              e in PendingPurchaseOrders(pos, payments, nowMs) && SearchMatches(e, term) && InWindow(e.dueDate, nowMs, w)
    ensures forall e :: multiset(r)[e] ==
              if SearchMatches(e, term) && InWindow(e.dueDate, nowMs, w)
              then multiset(PendingPurchaseOrders(pos, payments, nowMs))[e] else 0
    ensures forall e :: e in r ==> SearchMatches(e, term)
    ensures w == Overdue ==> forall e :: e in r ==> e.dueDate < Today(nowMs)
    ensures w == DueSoon ==> forall e :: e in r ==> Today(nowMs) <= e.dueDate <= Today(nowMs) + 7
    ensures forall i, j :: 0 <= i < j < |r| ==> r[i].dueDate <= r[j].dueDate
    ensures term == "" && w == All ==> multiset(r) == multiset(PendingPurchaseOrders(pos, payments, nowMs))
  {
    var pending := PendingPurchaseOrders(pos, payments, nowMs);
    var r := FilterPending(pending, term, w, nowMs);
    assert forall e :: e in r ==> e in pending && e.remainingAmount > 0.0;
    r
  }

  /** The modal's fields; an empty amount box is `None`. */
  datatype PaymentForm = PaymentForm(
    date: Day,
    purchaseOrderId: string,
    amount: Option<Money>,
    comment: string,
    paymentMode: PaymentMode)

  /** `handleAddDealerPayment` up to the request: the guards in the page's
      order and the payload it would send. */
  function AddDealerPayment(pos: seq<PurchaseOrder>, payments: seq<DealerPayment>, nowMs: int, form: PaymentForm): (r: Outcome<DealerPaymentPayload>)
    ensures form.purchaseOrderId == "" || form.amount.None? ==> r.Ignored?
    ensures PurchaseOrderPaymentStatus(pos, payments, form.purchaseOrderId).remainingAmount == 0.0 ==> r.Ignored?
    ensures r.Accepted? <==>
              form.purchaseOrderId != "" && form.amount.Some? &&
              0.0 < form.amount.value <= PurchaseOrderPaymentStatus(pos, payments, form.purchaseOrderId).remainingAmount
    ensures r.Rejected? <==>
              form.purchaseOrderId != "" && form.amount.Some? &&
              PurchaseOrderPaymentStatus(pos, payments, form.purchaseOrderId).remainingAmount > 0.0 &&
              !(0.0 < form.amount.value <= PurchaseOrderPaymentStatus(pos, payments, form.purchaseOrderId).remainingAmount)
    ensures r.Rejected? ==>
              form.amount.Some? &&
              (r.reason == NotPositive <==> form.amount.value <= 0.0)
    ensures r.Rejected? && form.amount.value > PurchaseOrderPaymentStatus(pos, payments, form.purchaseOrderId).remainingAmount ==>
              r.reason == ExceedsRemaining(PurchaseOrderPaymentStatus(pos, payments, form.purchaseOrderId).remainingAmount)
    ensures r.Accepted? ==>
              var p := r.payload;
              var st := PurchaseOrderPaymentStatus(pos, payments, form.purchaseOrderId);
              && p.purchaseOrderId == form.purchaseOrderId
              && p.amount == form.amount.value
              && p.paymentDate == form.date
              && p.paymentMode == form.paymentMode
              && p.comment == NullIfEmpty(form.comment)
              && (exists k :: 0 <= k < |pos| && pos[k].id == form.purchaseOrderId &&
                    p.dealerId == (if pos[k].dealerId == Some("") then None else pos[k].dealerId))
              && st.totalPaid + p.amount <= st.totalAmount
  {
    if form.purchaseOrderId == "" || form.amount.None? then Ignored
    else
      match FindPending(pos, payments, nowMs, form.purchaseOrderId)
      case None => Ignored
      case Some(po) =>
        var amount := form.amount.value;
        var status := PurchaseOrderPaymentStatus(pos, payments, po.id);
        match AmountGuard(amount, status.remainingAmount)
        case Some(reason) => Rejected(reason)
        case None =>
          Accepted(DealerPaymentPayload(
            po.id,
            NullIfEmpty(po.partyId),
            form.date,
            amount,
            form.paymentMode,
            NullIfEmpty(form.comment)))
  }

  /** The payment the backend stores for an accepted payload. */
  function Recorded(id: string, p: DealerPaymentPayload): DealerPayment
  {
    DealerPayment(id, p.purchaseOrderId, p.dealerId, p.paymentDate, p.amount, p.paymentMode, p.comment)
  }

  /** Appending one payment changes the status of its own purchase order
      only, and by exactly its amount. */
  lemma StatusSnoc(pos: seq<PurchaseOrder>, payments: seq<DealerPayment>, p: DealerPayment, id: string)
    ensures id != p.purchaseOrderId ==>
              PurchaseOrderPaymentStatus(pos, payments + [p], id) == PurchaseOrderPaymentStatus(pos, payments, id)
    ensures id == p.purchaseOrderId && FirstOrderIndex(pos, id) >= 0 ==>
              PurchaseOrderPaymentStatus(pos, payments + [p], id).totalPaid == PurchaseOrderPaymentStatus(pos, payments, id).totalPaid + p.amount &&
              PurchaseOrderPaymentStatus(pos, payments + [p], id).totalAmount == PurchaseOrderPaymentStatus(pos, payments, id).totalAmount
  {
    PaidForSnoc(payments, p, id);
  }

  /** Nothing has been paid beyond a purchase order's total. */
  ghost predicate Balanced(pos: seq<PurchaseOrder>, payments: seq<DealerPayment>)
  {
    forall id :: FirstOrderIndex(pos, id) >= 0 ==>
      PurchaseOrderPaymentStatus(pos, payments, id).totalPaid <= PurchaseOrderPaymentStatus(pos, payments, id).totalAmount
  }

  /** An accepted payment is added to its own purchase order only and never
      overpays it. */
  lemma AcceptedPaymentNeverOverpays(pos: seq<PurchaseOrder>, payments: seq<DealerPayment>, nowMs: int, form: PaymentForm, newId: string)
    requires AddDealerPayment(pos, payments, nowMs, form).Accepted?
    ensures var p := AddDealerPayment(pos, payments, nowMs, form).payload;
            var after := payments + [Recorded(newId, p)];
            && PurchaseOrderPaymentStatus(pos, after, p.purchaseOrderId).totalPaid
                 == PurchaseOrderPaymentStatus(pos, payments, p.purchaseOrderId).totalPaid + p.amount
            && PurchaseOrderPaymentStatus(pos, after, p.purchaseOrderId).totalPaid
                 <= PurchaseOrderPaymentStatus(pos, after, p.purchaseOrderId).totalAmount
            && (forall id :: id != p.purchaseOrderId ==>
                  PurchaseOrderPaymentStatus(pos, after, id) == PurchaseOrderPaymentStatus(pos, payments, id))
  {
    var p := AddDealerPayment(pos, payments, nowMs, form).payload;
    var d := Recorded(newId, p);
    assert FirstOrderIndex(pos, p.purchaseOrderId) >= 0;
    StatusSnoc(pos, payments, d, p.purchaseOrderId);
    forall id | id != p.purchaseOrderId
      ensures PurchaseOrderPaymentStatus(pos, payments + [d], id) == PurchaseOrderPaymentStatus(pos, payments, id)
    {
      StatusSnoc(pos, payments, d, id);
    }
  }

  /** Hence accepted payments keep the payables balanced. */
  lemma AcceptedPaymentPreservesBalanced(pos: seq<PurchaseOrder>, payments: seq<DealerPayment>, nowMs: int, form: PaymentForm, newId: string)
    requires AddDealerPayment(pos, payments, nowMs, form).Accepted?
    requires Balanced(pos, payments)
    ensures Balanced(pos, payments + [Recorded(newId, AddDealerPayment(pos, payments, nowMs, form).payload)])
  {
    var p := AddDealerPayment(pos, payments, nowMs, form).payload;
    var after := payments + [Recorded(newId, p)];
    AcceptedPaymentNeverOverpays(pos, payments, nowMs, form, newId);
    forall id | FirstOrderIndex(pos, id) >= 0
      ensures PurchaseOrderPaymentStatus(pos, after, id).totalPaid <= PurchaseOrderPaymentStatus(pos, after, id).totalAmount
    {
      if id != p.purchaseOrderId {
        assert PurchaseOrderPaymentStatus(pos, after, id) == PurchaseOrderPaymentStatus(pos, payments, id);
      }
    }
  }

  /** Settled purchase orders owe nothing, so the pending list carries the
      whole payable balance. */
  lemma PendingSumIsTotal(pos: seq<PurchaseOrder>, payments: seq<DealerPayment>, nowMs: int)
    ensures SumBy(PendingPurchaseOrders(pos, payments, nowMs), RemainingOf) == SumBy(Rows(pos, payments, nowMs), RemainingOf)
  {
    var rows := Rows(pos, payments, nowMs);
    assert forall e :: e in rows ==> e.remainingAmount >= 0.0;
    SumByFilter(rows, HasBalance, RemainingOf);
  }

  /** The summary cards of the page. */
  datatype PayableStats = PayableStats(totalPayable: Money, totalPaid: Money, totalOverdue: Money, overdueCount: nat)

  /** `stats`: the payable and overdue balances of the pending list, and
      everything paid so far. */
  function Stats(pos: seq<PurchaseOrder>, payments: seq<DealerPayment>, nowMs: int): (r: PayableStats)
    ensures 0.0 <= r.totalOverdue <= r.totalPayable
    ensures r.overdueCount <= |PendingPurchaseOrders(pos, payments, nowMs)|
    ensures r.totalOverdue == SumBy(Filter(PendingPurchaseOrders(pos, payments, nowMs), Late(nowMs)), RemainingOf)
    ensures r.overdueCount == |Filter(PendingPurchaseOrders(pos, payments, nowMs), Late(nowMs))|
    ensures r.totalPayable == SumBy(Rows(pos, payments, nowMs), RemainingOf)
    ensures r.totalPaid == SumBy(payments, AmountOf)
  {
    var s := Summarize(PendingPurchaseOrders(pos, payments, nowMs), nowMs);
    PendingSumIsTotal(pos, payments, nowMs);
    PayableStats(s.totalOutstanding, SumBy(payments, AmountOf), s.totalOverdue, s.overdueCount)
  }

  /** Recording a payment raises the paid total by exactly its amount. */
  lemma PaidTotalGrows(pos: seq<PurchaseOrder>, payments: seq<DealerPayment>, nowMs: int, p: DealerPayment)
    ensures Stats(pos, payments + [p], nowMs).totalPaid == Stats(pos, payments, nowMs).totalPaid + p.amount
  {
    assert (payments + [p])[..|payments|] == payments;
  }

  function NegatedDate(p: DealerPayment): int
  {
    -p.paymentDate
  }

  /** `sortedDealerPayments`: a sorted copy of the history, latest payment
      first; the fetched list itself is a value and is left as it was. */
  function SortedDealerPayments(payments: seq<DealerPayment>): (r: seq<DealerPayment>)
    ensures |r| == |payments|
    ensures multiset(r) == multiset(payments)
    ensures forall i, j :: 0 <= i < j < |r| ==> r[i].paymentDate >= r[j].paymentDate
  {
    var r := SortBy(payments, NegatedDate);
    assert forall i, j :: 0 <= i < j < |r| ==> NegatedDate(r[i]) <= NegatedDate(r[j]);
    r
  }
}

=== FILE: dealers.dfy ===
/** The dealer directory (src/pages/Dealer.tsx): search over either spelling
    of the fields, the payload of the dealer form, the list after a delete and
    the values a row shows. */
module Dealers {
  import opened Common
  import opened Lists
  import opened Records

  /** `snake || camel || fallback`: the first non-empty spelling. */
  function EitherSpelling(snake: Option<string>, camel: Option<string>, fallback: string): (s: string)
    ensures snake.Some? && snake.value != "" ==> s == snake.value
    ensures (snake.None? || snake == Some("")) && camel.Some? && camel.value != "" ==> s == camel.value
    ensures (snake.None? || snake == Some("")) && (camel.None? || camel == Some("")) ==> s == fallback
  {
    OrElse(snake, OrElse(camel, fallback))
  }

  function CompanyName(d: Dealer, fallback: string): string
  {
    EitherSpelling(d.companyNameSnake, d.companyNameCamel, fallback)
  }

  function ContactName(d: Dealer, fallback: string): string
  {
    EitherSpelling(d.contactNameSnake, d.contactNameCamel, fallback)
  }

  /** Company, contact or city, case-insensitively. */
  predicate DealerMatches(d: Dealer, term: string)
  {
    MatchesCI(CompanyName(d, ""), term) || MatchesCI(ContactName(d, ""), term) || MatchesCI(OrElse(d.city, ""), term)
  }

  /** `filteredDealers`. */
  function FilteredDealers(dealers: seq<Dealer>, term: string): (r: seq<Dealer>)
    ensures forall d :: d in r <==> d in dealers && DealerMatches(d, term)
    ensures IsSubseq(r, dealers)
  {
    Filter(dealers, (d: Dealer) => DealerMatches(d, term))
  }

  /** An empty search lists every dealer. */
  lemma FilteredDealersEmpty(dealers: seq<Dealer>)
    ensures FilteredDealers(dealers, "") == dealers
  {
    forall d | d in dealers
      ensures DealerMatches(d, "")
    {
      EmptyQueryMatches(CompanyName(d, ""));
    }
    FilterAll(dealers, (d: Dealer) => DealerMatches(d, ""));
  }

  /** The fields of the dealer form. An empty balance box is `None`; the
      checkbox entry is present (as `on`) only when ticked. */
  datatype DealerForm = DealerForm(
    name: string,
    companyName: string,
    mobileNo: string,
    address: string,
    city: string,
    outstandingBalance: Option<Money>,
    isActive: Option<string>)

  /** `payload` of `handleSave`. */
  function DealerPayloadOf(f: DealerForm): (p: DealerPayload)
    ensures p.contactName == f.name && p.companyName == f.companyName && p.mobileNo == f.mobileNo
    ensures p.address.None? <==> f.address == ""
    ensures p.city.None? <==> f.city == ""
    ensures OrElse(p.address, "") == f.address && OrElse(p.city, "") == f.city
    ensures f.outstandingBalance.None? ==> p.outstandingBalance == 0.0
    ensures f.outstandingBalance.Some? ==> p.outstandingBalance == f.outstandingBalance.value
    ensures p.isActive <==> f.isActive == Some("on")
  {
    NullIfEmptyRoundTrip(f.address);
    NullIfEmptyRoundTrip(f.city);
    DealerPayload(
      f.name,
      f.companyName,
      f.mobileNo,
      NullIfEmpty(f.address),
      NullIfEmpty(f.city),
      f.isActive == Some("on"),
      f.outstandingBalance.GetOr(0.0))
  }

  /** `handleSave`: the dealer being edited is updated, otherwise one is
      created. */
  function SaveDealer(editing: Option<Dealer>, f: DealerForm): (r: SaveRequest<DealerPayload>)
    ensures r.Update? <==> editing.Some?
    ensures r.Update? ==> r.id == editing.value.id
    ensures r.payload == DealerPayloadOf(f)
    ensures r.payload.isActive <==> f.isActive == Some("on")
  {
    SaveTo(if editing.Some? then Some(editing.value.id) else None, DealerPayloadOf(f))
  }

  function DealerId(d: Dealer): string
  {
    d.id
  }

  /** `deleteDealer` after the backend has deleted the dealer. */
  function DeleteDealer(dealers: seq<Dealer>, id: string, confirmed: bool): (r: seq<Dealer>)
    ensures !confirmed ==> r == dealers
    ensures confirmed ==> forall d :: d in r <==> d in dealers && d.id != id
    ensures confirmed ==> forall d :: multiset(r)[d] == if d.id != id then multiset(dealers)[d] else 0
    ensures IsSubseq(r, dealers)
  {
    if confirmed then RemoveKey(dealers, DealerId, id)
    else
      IsSubseqRefl(dealers);
      dealers
  }

  /** What a row of the table shows. */
  datatype DealerRow = DealerRow(
    companyName: string,
    contactName: string,
    mobileNo: string,
    city: string,
    isActive: bool,
    outstandingBalance: Money)

  /** The row values: text fields fall back with `||` to `-`, the status and
      the balance with `??`, so only a missing value falls back. */
  function Row(d: Dealer): (row: DealerRow)
    ensures d.isActiveSnake.Some? ==> row.isActive == d.isActiveSnake.value
    ensures d.isActiveSnake.None? && d.isActiveCamel.Some? ==> row.isActive == d.isActiveCamel.value
    ensures d.isActiveSnake.None? && d.isActiveCamel.None? ==> row.isActive
    ensures d.outstandingBalanceSnake.Some? ==> row.outstandingBalance == d.outstandingBalanceSnake.value
    ensures d.outstandingBalanceSnake.None? && d.outstandingBalanceCamel.Some? ==>
              row.outstandingBalance == d.outstandingBalanceCamel.value
    ensures d.outstandingBalanceSnake.None? && d.outstandingBalanceCamel.None? ==> row.outstandingBalance == 0.0
    ensures row.companyName != "" && row.contactName != "" && row.mobileNo != "" && row.city != ""
  {
    DealerRow(
      CompanyName(d, "-"),
      ContactName(d, "-"),
      EitherSpelling(d.mobileNoSnake, d.mobileNoCamel, "-"),
      OrElse(d.city, "-"),
      d.isActiveSnake.GetOr(d.isActiveCamel.GetOr(true)),
      d.outstandingBalanceSnake.GetOr(d.outstandingBalanceCamel.GetOr(0.0)))
  }

  /** A row shows the name the search looks at, or `-` when that name is
      empty. */
  lemma RowShowsSearchedName(d: Dealer)
    ensures CompanyName(d, "") != "" ==> Row(d).companyName == CompanyName(d, "")
    ensures CompanyName(d, "") == "" ==> Row(d).companyName == "-"
  {
  }

  /** A dealer created from the form is shown with the status and balance
      the form sent, even an inactive one or a zero balance. */
  lemma RowShowsSavedPayload(d: Dealer, f: DealerForm)
    requires d.isActiveSnake == Some(DealerPayloadOf(f).isActive)
    requires d.outstandingBalanceSnake == Some(DealerPayloadOf(f).outstandingBalance)
    ensures Row(d).isActive <==> f.isActive == Some("on")
    ensures Row(d).outstandingBalance == f.outstandingBalance.GetOr(0.0)
  {
  }
}

=== FILE: ledger.dfy ===
/** What the receivables page (Collection.tsx) and the payables page
    (DealerPayment.tsx) have in common: the clock, the due-date windows and
    colours, the list of entries that still carry a balance, its search and
    sort, the overdue summary and the guard on a new payment. */
module Ledger {
  import opened Common
  import opened Lists

  /** `24 * 60 * 60 * 1000`. */
  const MsPerDay: int := 86400000

  /** `new Date(d)` for a date string: the first millisecond of day `d`. */
  function DayStart(d: Day): int
  {
    d * 86400000
  }

  /** The day that contains the instant `nowMs`; `DayStart(Today(nowMs))`
      is `today.setHours(0, 0, 0, 0)`. */
  function Today(nowMs: int): Day
  {
    nowMs / 86400000
  }

  lemma TodayBounds(nowMs: int)
    ensures DayStart(Today(nowMs)) <= nowMs < DayStart(Today(nowMs)) + MsPerDay
  {
  }

  /** `getDaysUntilDue`: `Math.ceil((due - now) / MsPerDay)`. */
  function DaysUntilDue(due: Day, nowMs: int): (days: int)
    ensures days == due - Today(nowMs)
  {
    var t := Today(nowMs);
    var rem := nowMs - DayStart(t);
    assert 0 <= rem < MsPerDay by {
      TodayBounds(nowMs);
    }
    assert nowMs - DayStart(due) == (t - due) * 86400000 + rem;
    DivUnique(nowMs - DayStart(due), t - due, rem);
    -((nowMs - DayStart(due)) / 86400000)
  }

  /** Division by the length of a day has one quotient. */
  lemma DivUnique(a: int, q: int, r: int)
    requires a == q * 86400000 + r
    requires 0 <= r < 86400000
    ensures a / 86400000 == q
  {
  }

  /** The filter buttons of both pending lists. */
  datatype Window = All | Overdue | DueSoon

  /** The date test each button applies, comparing instants as the page does:
      overdue is before the start of today, due soon is from the start of
      today to the same instant seven days later. */
  predicate InWindow(due: Day, nowMs: int, w: Window)
  {
    var today := DayStart(Today(nowMs));
    match w
    case All => true
    case Overdue => DayStart(due) < today
    case DueSoon => DayStart(due) >= today && DayStart(due) <= today + 7 * MsPerDay
  }

  /** In day numbers the windows are `due < today` and
      `today <= due <= today + 7`. */
  lemma InWindowDays(due: Day, nowMs: int)
    ensures InWindow(due, nowMs, Overdue) <==> due < Today(nowMs)
    ensures InWindow(due, nowMs, DueSoon) <==> Today(nowMs) <= due <= Today(nowMs) + 7
  {
  }

  datatype Colour = Rose | Amber | Blue

  /** `getStatusColor`. */
  function StatusColour(daysUntilDue: int): (c: Colour)
    ensures c == Rose <==> daysUntilDue < 0
    ensures c == Amber <==> 0 <= daysUntilDue <= 7
    ensures c == Blue <==> daysUntilDue > 7
  {
    if daysUntilDue < 0 then Rose
    else if daysUntilDue <= 7 then Amber
    else Blue
  }

  /** The colour of a row agrees with the filter buttons: rose rows are
      exactly the overdue ones, amber rows exactly the due-soon ones, and blue
      rows are due more than a week ahead. */
  lemma ColourMatchesWindow(due: Day, nowMs: int)
    ensures StatusColour(DaysUntilDue(due, nowMs)) == Rose <==> InWindow(due, nowMs, Overdue)
    ensures StatusColour(DaysUntilDue(due, nowMs)) == Amber <==> InWindow(due, nowMs, DueSoon)
    ensures StatusColour(DaysUntilDue(due, nowMs)) == Blue <==> due > Today(nowMs) + 7
  {
    InWindowDays(due, nowMs);
  }

  /** The colour of a pending row, `getStatusColor(getDaysUntilDue(due))`:
      rose exactly for the rows the overdue button shows, amber exactly for
      those the due-soon button shows, blue for the rest. */
  function RowColour(e: PendingEntry, nowMs: int): (c: Colour)
    ensures c == Rose <==> InWindow(e.dueDate, nowMs, Overdue)
    ensures c == Amber <==> InWindow(e.dueDate, nowMs, DueSoon)
    ensures c == Blue <==> e.dueDate > Today(nowMs) + 7
  {
    ColourMatchesWindow(e.dueDate, nowMs);
    StatusColour(DaysUntilDue(e.dueDate, nowMs))
  }

  /** `Math.max(0, total - paid)`. */
  function Outstanding(total: Money, paid: Money): (r: Money)
    ensures r >= 0.0 && r >= total - paid
    ensures r == 0.0 || r == total - paid
    ensures r > 0.0 <==> paid < total
  {
    if total - paid > 0.0 then total - paid else 0.0
  }

  /** A row of either pending list (`PendingOrder`, `PendingPurchaseOrder`):
      the order, its counter-party and what is still owed on it. */
  datatype PendingEntry = PendingEntry(
    id: string,
    number: string,
    partyId: string,
    partyName: string,
    totalAmount: Money,
    dueDate: Day,
    remainingAmount: Money)

  function DueKey(e: PendingEntry): int
  {
    e.dueDate
  }

  function RemainingOf(e: PendingEntry): real
  {
    e.remainingAmount
  }

  /** The search box: order number or party name, case-insensitively. */
  predicate SearchMatches(e: PendingEntry, term: string)
  {
    MatchesCI(e.number, term) || MatchesCI(e.partyName, term)
  }

  /** The entries that match the search and lie in the window, in list order. */
  function Selected(pending: seq<PendingEntry>, term: string, w: Window, nowMs: int): (r: seq<PendingEntry>)
    ensures forall e :: multiset(r)[e] == (if SearchMatches(e, term) && InWindow(e.dueDate, nowMs, w) then multiset(pending)[e] else 0)
  {
    var searched := Filter(pending, (e: PendingEntry) => SearchMatches(e, term));
    Filter(searched, (e: PendingEntry) => InWindow(e.dueDate, nowMs, w))
  }

  /** With an empty search and no date filter nothing is dropped. */
  lemma SelectedAll(pending: seq<PendingEntry>, nowMs: int)
    ensures multiset(Selected(pending, "", All, nowMs)) == multiset(pending)
  {
    var r := Selected(pending, "", All, nowMs);
    forall e: PendingEntry
      ensures multiset(r)[e] == multiset(pending)[e]
    {
      EmptyQueryMatches(e.number);
    }
  }

  /** `filteredPendingOrders` / `filteredPendingPurchaseOrders`: the entries
      that match the search and lie in the window, earliest due first. */
  function FilterPending(pending: seq<PendingEntry>, term: string, w: Window, nowMs: int): (r: seq<PendingEntry>)
    ensures forall e :: multiset(r)[e] == (if SearchMatches(e, term) && InWindow(e.dueDate, nowMs, w) then multiset(pending)[e] else 0)
    ensures forall e :: e in r <==> e in pending && SearchMatches(e, term) && InWindow(e.dueDate, nowMs, w)
    ensures w == Overdue ==> forall e :: e in r ==> e.dueDate < Today(nowMs)
    ensures w == DueSoon ==> forall e :: e in r ==> Today(nowMs) <= e.dueDate <= Today(nowMs) + 7
    ensures forall i, j :: 0 <= i < j < |r| ==> r[i].dueDate <= r[j].dueDate
    ensures term == "" && w == All ==> multiset(r) == multiset(pending)
  {
    var r := SortBy(Selected(pending, term, w, nowMs), DueKey);
    WindowsInDays(r, pending, term, w, nowMs);
    forall e
      ensures e in r <==> e in pending && SearchMatches(e, term) && InWindow(e.dueDate, nowMs, w)
    {
      assert e in r <==> multiset(r)[e] > 0;
      assert e in pending <==> multiset(pending)[e] > 0;
    }
    if term == "" && w == All then
      SelectedAll(pending, nowMs);
      r
    else
      r
  }

  /** Every entry kept by the selection lies in the window, in day terms. */
  lemma WindowsInDays(r: seq<PendingEntry>, pending: seq<PendingEntry>, term: string, w: Window, nowMs: int)
    requires forall e :: multiset(r)[e] == (if SearchMatches(e, term) && InWindow(e.dueDate, nowMs, w) then multiset(pending)[e] else 0)
    ensures forall e :: e in r ==> e in pending && InWindow(e.dueDate, nowMs, w)
    ensures w == Overdue ==> forall e :: e in r ==> e.dueDate < Today(nowMs)
    ensures w == DueSoon ==> forall e :: e in r ==> Today(nowMs) <= e.dueDate <= Today(nowMs) + 7
  {
    forall e | e in r
      ensures e in pending && InWindow(e.dueDate, nowMs, w)
    {
      assert multiset(r)[e] > 0;
    }
    forall e | e in r
      ensures w == Overdue ==> e.dueDate < Today(nowMs)
      ensures w == DueSoon ==> Today(nowMs) <= e.dueDate <= Today(nowMs) + 7
    {
      InWindowDays(e.dueDate, nowMs);
    }
  }

  /** The overdue test of the summary cards: `new Date(due) < new Date()`,
      which compares with the current instant rather than the start of
      today. */
  predicate OverdueNow(e: PendingEntry, nowMs: int)
  {
    DayStart(e.dueDate) < nowMs
  }

  function Late(nowMs: int): PendingEntry -> bool
  {
    (e: PendingEntry) => OverdueNow(e, nowMs)
  }

  /** The summary cards common to both pages. */
  datatype Summary = Summary(totalOutstanding: Money, totalOverdue: Money, overdueCount: nat)

  /** `stats`: the balance still owed over the pending entries, and the part
      of it (and the number of entries) already past due. */
  function Summarize(pending: seq<PendingEntry>, nowMs: int): (r: Summary)
    ensures r.totalOutstanding == SumBy(pending, RemainingOf)
    ensures r.totalOverdue == SumBy(Filter(pending, Late(nowMs)), RemainingOf)
    ensures r.overdueCount == |Filter(pending, Late(nowMs))|
    ensures r.overdueCount <= |pending|
    ensures r.overdueCount == 0 <==> forall e :: e in pending ==> !OverdueNow(e, nowMs)
    ensures (forall e :: e in pending ==> e.remainingAmount >= 0.0) ==>
              0.0 <= r.totalOverdue <= r.totalOutstanding
  {
    var late? := Late(nowMs);
    var overdue := Filter(pending, late?);
    var total := SumBy(pending, RemainingOf);
    var late := SumBy(overdue, RemainingOf);
    if forall e :: e in pending ==> e.remainingAmount >= 0.0 then
      SumByFilter(pending, late?, RemainingOf);
      SumByNonNegative(overdue, RemainingOf);
      Summary(total, late, |overdue|)
    else
      Summary(total, late, |overdue|)
  }

  /** The overdue card and the balance of the entries not yet past due
      make up the outstanding card, and the overdue count and the number of
      those entries make up the number of pending entries. */
  lemma OverdueSplit(pending: seq<PendingEntry>, nowMs: int)
    ensures Summarize(pending, nowMs).totalOverdue + SumBy(Filter(pending, Not(Late(nowMs))), RemainingOf)
              == Summarize(pending, nowMs).totalOutstanding
    ensures Summarize(pending, nowMs).overdueCount + |Filter(pending, Not(Late(nowMs)))| == |pending|
  {
    SumByPartition(pending, Late(nowMs), RemainingOf);
  }

  /** The summary's overdue test is looser than the list's overdue filter:
      an entry due today is counted as overdue on the cards once the day has
      begun, while the overdue filter leaves it out and colours it amber. */
  lemma OverdueCardCountsDueToday(e: PendingEntry, nowMs: int)
    requires e.dueDate == Today(nowMs) && nowMs > DayStart(Today(nowMs))
    ensures OverdueNow(e, nowMs)
    ensures !InWindow(e.dueDate, nowMs, Overdue)
    ensures StatusColour(DaysUntilDue(e.dueDate, nowMs)) == Amber
  {
  }

  /** An entry the overdue filter would show is always counted on the cards. */
  lemma OverdueFilterWithinCard(e: PendingEntry, nowMs: int)
    requires InWindow(e.dueDate, nowMs, Overdue)
    ensures OverdueNow(e, nowMs)
  {
    TodayBounds(nowMs);
  }

  /** Why a payment was refused (the page shows an alert and stops). */
  datatype Rejection = ExceedsRemaining(remaining: Money) | NotPositive

  /** The result of pressing "save" on a payment form: nothing happens, an
      alert refuses it, or a payload is sent. */
  datatype Outcome<P> = Ignored | Rejected(reason: Rejection) | Accepted(payload: P)

  /** The two amount checks, in the page's order: more than the remaining
      balance first, then zero or negative. */
  function AmountGuard(amount: Money, remaining: Money): (r: Option<Rejection>)
    ensures r.None? <==> 0.0 < amount <= remaining
    ensures r == Some(NotPositive) <==> amount <= 0.0 && amount <= remaining
  {
    if amount > remaining then Some(ExceedsRemaining(remaining))
    else if amount <= 0.0 then Some(NotPositive)
    else None
  }
}

=== FILE: lists.dfy ===
/** The array operations the pages use on their in-memory lists, written
    once over sequences: `filter`, `map`, `find`, `reduce` to a sum and a
    stable `sort` on an integer key. */
module Lists {
  import opened Common

  /** `a` is obtained from `b` by dropping elements, keeping the order. */
  ghost predicate IsSubseq<T>(a: seq<T>, b: seq<T>)
    decreases |b|
  {
    if |a| == 0 then true
    else if |b| == 0 then false
    else (a[0] == b[0] && IsSubseq(a[1..], b[1..])) || IsSubseq(a, b[1..])
  }

  /** Every sequence is a subsequence of itself. */
  lemma {:induction false} IsSubseqRefl<T>(xs: seq<T>)
    ensures IsSubseq(xs, xs)
    decreases |xs|
  {
    if |xs| > 0 {
      IsSubseqRefl(xs[1..]);
    }
  }

  /** `xs.filter(p)`. */
  function Filter<T(!new)>(xs: seq<T>, p: T -> bool): (r: seq<T>)
    ensures |r| <= |xs|
    ensures forall x :: x in r <==> x in xs && p(x)
    ensures forall x :: multiset(r)[x] == if p(x) then multiset(xs)[x] else 0
    ensures IsSubseq(r, xs)
  {
    if |xs| == 0 then []
    else
      assert xs == [xs[0]] + xs[1..];
      var rest := Filter(xs[1..], p);
      if p(xs[0]) then
        assert ([xs[0]] + rest)[1..] == rest;
        [xs[0]] + rest
      else
        rest
  }

  /** A filter whose predicate holds everywhere keeps the whole list. */
  lemma {:induction false} FilterAll<T(!new)>(xs: seq<T>, p: T -> bool)
    requires forall x :: x in xs ==> p(x)
    ensures Filter(xs, p) == xs
  {
    if |xs| > 0 {
      FilterAll(xs[1..], p);
      assert xs == [xs[0]] + xs[1..];
    }
  }

  /** One step of `filter` from the front. */
  lemma FilterCons<T(!new)>(xs: seq<T>, p: T -> bool)
    requires |xs| > 0
    ensures Filter(xs, p) == (if p(xs[0]) then [xs[0]] else []) + Filter(xs[1..], p)
  {
  }

  lemma SeqAssoc<T>(a: seq<T>, b: seq<T>, c: seq<T>)
    ensures a + (b + c) == (a + b) + c
  {
  }

  /** Filtering distributes over appending one element at the end. */
  lemma {:induction false} FilterSnoc<T(!new)>(xs: seq<T>, x: T, p: T -> bool)
    ensures Filter(xs + [x], p) == Filter(xs, p) + (if p(x) then [x] else [])
  {
    var tail := if p(x) then [x] else [];
    if |xs| == 0 {
      FilterCons([x], p);
      assert [x][1..] == [];
    } else {
      var ys := xs + [x];
      assert ys[0] == xs[0];
      assert ys[1..] == xs[1..] + [x];
      FilterSnoc(xs[1..], x, p);
      var head := if p(xs[0]) then [xs[0]] else [];
      FilterCons(ys, p);
      FilterCons(xs, p);
      var mid := Filter(xs[1..], p);
      SeqAssoc(head, mid, tail);
    }
  }

  /** `xs.map(f)`. */
  function Map<T, U>(xs: seq<T>, f: T -> U): (r: seq<U>)
    ensures |r| == |xs|
    ensures forall i :: 0 <= i < |xs| ==> r[i] == f(xs[i])
  {
    seq(|xs|, i requires 0 <= i < |xs| => f(xs[i]))
  }

  /** `xs.find(p)`: the first element satisfying `p`, if any. */
  function FindFirst<T(==,!new)>(xs: seq<T>, p: T -> bool): (r: Option<T>)
    ensures r.None? <==> forall x :: x in xs ==> !p(x)
    ensures r.Some? ==> exists k :: 0 <= k < |xs| && xs[k] == r.value && p(xs[k]) &&
                          forall j :: 0 <= j < k ==> !p(xs[j])
  {
    if |xs| == 0 then None
    else if p(xs[0]) then Some(xs[0])
    else
      var r := FindFirst(xs[1..], p);
      assert xs == [xs[0]] + xs[1..];
      if r.Some? then
        var k :| 0 <= k < |xs[1..]| && xs[1..][k] == r.value && p(xs[1..][k]) &&
                 forall j :: 0 <= j < k ==> !p(xs[1..][j]);
        assert xs[k + 1] == r.value;
        r
      else
        r
  }

  /** `xs.reduce((acc, x) => acc + f(x), 0)`, accumulated from the left. */
  function SumBy<T>(xs: seq<T>, f: T -> real): real
  {
    if |xs| == 0 then 0.0 else SumBy(xs[..|xs| - 1], f) + f(xs[|xs| - 1])
  }

  lemma {:induction false} SumByAppend<T>(xs: seq<T>, ys: seq<T>, f: T -> real)
    ensures SumBy(xs + ys, f) == SumBy(xs, f) + SumBy(ys, f)
    decreases |ys|
  {
    if |ys| == 0 {
      assert xs + ys == xs;
    } else {
      var init := ys[..|ys| - 1];
      assert (xs + ys)[..|xs + ys| - 1] == xs + init;
      SumByAppend(xs, init, f);
    }
  }

  /** A sum of non-negative terms is non-negative. */
  lemma {:induction false} SumByNonNegative<T>(xs: seq<T>, f: T -> real)
    requires forall x :: x in xs ==> f(x) >= 0.0
    ensures SumBy(xs, f) >= 0.0
  {
    if |xs| > 0 {
      assert forall x :: x in xs[..|xs| - 1] ==> x in xs;
      SumByNonNegative(xs[..|xs| - 1], f);
    }
  }

  /** Dropping non-negative terms never increases a sum; dropping only zero
      terms leaves it unchanged. */
  lemma {:induction false} SumByFilter<T(!new)>(xs: seq<T>, p: T -> bool, f: T -> real)
    requires forall x :: x in xs ==> f(x) >= 0.0
    ensures SumBy(Filter(xs, p), f) <= SumBy(xs, f)
    ensures (forall x :: x in xs && !p(x) ==> f(x) == 0.0) ==> SumBy(Filter(xs, p), f) == SumBy(xs, f)
  {
    if |xs| > 0 {
      var rest := xs[1..];
      assert xs == [xs[0]] + rest;
      SumByFilter(rest, p, f);
      SumByAppend([xs[0]], rest, f);
      assert SumBy([xs[0]], f) == f(xs[0]) by {
        assert [xs[0]][..0] == [];
      }
      if p(xs[0]) {
        SumByAppend([xs[0]], Filter(rest, p), f);
      }
    }
  }

  function Not<T>(p: T -> bool): T -> bool
  {
    (x: T) => !p(x)
  }

  /** The elements that pass and those that fail split a list: their sums
      and their counts add up to those of the whole list. */
  lemma {:induction false} SumByPartition<T(!new)>(xs: seq<T>, p: T -> bool, f: T -> real)
    ensures SumBy(Filter(xs, p), f) + SumBy(Filter(xs, Not(p)), f) == SumBy(xs, f)
    ensures |Filter(xs, p)| + |Filter(xs, Not(p))| == |xs|
  {
    if |xs| > 0 {
      var init := xs[..|xs| - 1];
      var x := xs[|xs| - 1];
      assert xs == init + [x];
      SumByPartition(init, p, f);
      FilterSnoc(init, x, p);
      FilterSnoc(init, x, Not(p));
      assert SumBy([x], f) == f(x) by {
        assert [x][..0] == [];
      }
      SumByAppend(Filter(init, p), if p(x) then [x] else [], f);
      SumByAppend(Filter(init, Not(p)), if Not(p)(x) then [x] else [], f);
    }
  }

  /** Consecutive and non-consecutive elements are in ascending key order. */
  predicate SortedBy<T>(s: seq<T>, key: T -> int)
  {
    forall i, j :: 0 <= i < j < |s| ==> key(s[i]) <= key(s[j])
  }

  /** Inserts `x` in front of the first element whose key is not smaller, so
      that among equal keys the inserted element comes first. */
  function Insert<T>(x: T, s: seq<T>, key: T -> int): (r: seq<T>)
    requires SortedBy(s, key)
    ensures |r| == |s| + 1
    ensures SortedBy(r, key)
    ensures multiset(r) == multiset(s) + multiset{x}
    ensures r[0] == x || (|s| > 0 && r[0] == s[0])
  {
    if |s| == 0 || key(x) <= key(s[0]) then
      [x] + s
    else
      assert s == [s[0]] + s[1..];
      var t := Insert(x, s[1..], key);
      SortedCons(s[0], t, key);
      [s[0]] + t
  }

  /** An element whose key is at most the first key of a sorted list keeps it
      sorted when put in front. */
  lemma SortedCons<T>(a: T, t: seq<T>, key: T -> int)
    requires SortedBy(t, key)
    requires |t| > 0 ==> key(a) <= key(t[0])
    ensures SortedBy([a] + t, key)
  {
    var r := [a] + t;
    forall i, j | 0 <= i < j < |r|
      ensures key(r[i]) <= key(r[j])
    {
      if i == 0 {
        assert r[j] == t[j - 1];
        assert key(t[0]) <= key(t[j - 1]);
      } else {
        assert r[i] == t[i - 1] && r[j] == t[j - 1];
      }
    }
  }

  /** `[...xs].sort((a, b) => key(a) - key(b))`: a stable sort (the sort of
      ECMAScript 2019 and later) on an integer key, without touching `xs`. */
  function SortBy<T>(xs: seq<T>, key: T -> int): (r: seq<T>)
    ensures |r| == |xs|
    ensures SortedBy(r, key)
    ensures multiset(r) == multiset(xs)
  {
    if |xs| == 0 then []
    else
      assert xs == [xs[0]] + xs[1..];
      Insert(xs[0], SortBy(xs[1..], key), key)
  }

  function NotKey<T>(key: T -> string, id: string): T -> bool
  {
    (x: T) => key(x) != id
  }

  /** `xs.filter((x) => x.id !== id)`: the list after a delete, every entry
      with that id gone and the others in their order. */
  function RemoveKey<T(!new)>(xs: seq<T>, key: T -> string, id: string): (r: seq<T>)
    ensures forall x :: x in r <==> x in xs && key(x) != id
    ensures forall x :: multiset(r)[x] == if key(x) != id then multiset(xs)[x] else 0
    ensures IsSubseq(r, xs)
    ensures (forall x :: x in xs ==> key(x) != id) ==> r == xs
  {
    KeepsAllWhen(xs, NotKey(key, id));
    Filter(xs, NotKey(key, id))
  }

  lemma KeepsAllWhen<T(!new)>(xs: seq<T>, p: T -> bool)
    ensures (forall x :: x in xs ==> p(x)) ==> Filter(xs, p) == xs
  {
    if forall x :: x in xs ==> p(x) {
      FilterAll(xs, p);
    }
  }

  /** Deleting the same id twice is the same as deleting it once. */
  lemma RemoveKeyIdempotent<T(!new)>(xs: seq<T>, key: T -> string, id: string)
    ensures RemoveKey(RemoveKey(xs, key, id), key, id) == RemoveKey(xs, key, id)
  {
    var once := RemoveKey(xs, key, id);
    assert forall x :: x in once ==> key(x) != id;
  }

  /** No two elements share a key. */
  predicate DistinctKeys<T>(xs: seq<T>, key: T -> string)
  {
    forall i, j :: 0 <= i < j < |xs| ==> key(xs[i]) != key(xs[j])
  }

  /** Filtering keeps keys distinct. */
  lemma {:induction false} FilterKeepsDistinct<T(!new)>(xs: seq<T>, p: T -> bool, key: T -> string)
    requires DistinctKeys(xs, key)
    ensures DistinctKeys(Filter(xs, p), key)
  {
    if |xs| > 0 {
      var rest := xs[1..];
      assert xs == [xs[0]] + rest;
      FilterKeepsDistinct(rest, p, key);
      if p(xs[0]) {
        var r := [xs[0]] + Filter(rest, p);
        forall i, j | 0 <= i < j < |r|
          ensures key(r[i]) != key(r[j])
        {
          if i == 0 {
            assert r[j] in rest;
            var k :| 0 <= k < |rest| && rest[k] == r[j];
            assert xs[k + 1] == r[j];
          }
        }
      }
    }
  }
}

=== FILE: orders.dfy ===
/** The sales history (src/pages/Orders.tsx): the due label, the search,
    the selected order and its items, and the due date shown. */
module OrderHistory {
  import opened Common
  import opened Lists
  import opened Records
  import Ledger
  import Collection

  predicate IsDigit(c: char)
  {
    '0' <= c <= '9'
  }

  predicate AllDigits(s: string)
  {
    forall i :: 0 <= i < |s| ==> IsDigit(s[i])
  }

  function DigitChar(d: int): (c: char)
    requires 0 <= d < 10
    ensures IsDigit(c) && c as int - '0' as int == d
  {
    ('0' as int + d) as char
  }

  /** A natural number in decimal, as a template literal writes it. */
  function NatToString(n: nat): (s: string)
    ensures |s| >= 1 && AllDigits(s)
    ensures s[0] == '0' ==> n == 0
  {
    if n < 10 then [DigitChar(n)]
    else NatToString(n / 10) + [DigitChar(n % 10)]
  }

  /** The value of a string of decimal digits. */
  function ParseDigits(s: string): nat
    requires AllDigits(s)
  {
    if |s| == 0 then 0
    else ParseDigits(s[..|s| - 1]) * 10 + (s[|s| - 1] as int - '0' as int)
  }

  /** Reading the decimal digits back gives the number. */
  lemma {:induction false} ParseNatToString(n: nat)
    ensures ParseDigits(NatToString(n)) == n
  {
    if n >= 10 {
      ParseNatToString(n / 10);
      var s := NatToString(n);
      assert s[..|s| - 1] == NatToString(n / 10);
    }
  }

  /** The label of `getDueInfo` for a number of days until the due date. */
  function DueLabel(days: int): (text: string)
    ensures days < 0 <==> StartsWith(text, "Overdue ")
  {
    if days < 0 then "Overdue " + NatToString(-days) + "d"
    else
      var digits := NatToString(days);
      assert !StartsWith(digits + " days left", "Overdue ") by {
        assert IsDigit((digits + " days left")[0]);
      }
      digits + " days left"
  }

  /** Reads a due label back: the inverse of `DueLabel`. */
  function ParseDueLabel(text: string): Option<int>
  {
    if StartsWith(text, "Overdue ") && |text| > 8 && text[|text| - 1] == 'd' && AllDigits(text[8..|text| - 1]) then
      var late: int := ParseDigits(text[8..|text| - 1]);
      Some(-late)
    else if |text| >= 10 && text[|text| - 10..] == " days left" && AllDigits(text[..|text| - 10]) then
      Some(ParseDigits(text[..|text| - 10]))
    else None
  }

  /** The label loses nothing: the number of days can be read back from it. */
  lemma DueLabelRoundTrip(days: int)
    ensures ParseDueLabel(DueLabel(days)) == Some(days)
  {
    var text := DueLabel(days);
    if days < 0 {
      var digits := NatToString(-days);
      assert text[8..|text| - 1] == digits;
      ParseNatToString(-days);
    } else {
      var digits := NatToString(days);
      assert text[|text| - 10..] == " days left";
      assert text[..|text| - 10] == digits;
      ParseNatToString(days);
    }
  }

  /** `getDueInfo` for a due date and the current instant: the label says
      "Overdue" exactly for a date before today, with the number of days
      late, and otherwise the number of days left. */
  function DueInfo(due: Day, nowMs: int): (text: string)
    ensures StartsWith(text, "Overdue ") <==> due < Ledger.Today(nowMs)
    ensures ParseDueLabel(text) == Some(due - Ledger.Today(nowMs))
  {
    var days := Ledger.DaysUntilDue(due, nowMs);
    DueLabelRoundTrip(days);
    DueLabel(days)
  }

  /** Order number or customer name (empty when missing), case-insensitively. */
  predicate OrderMatches(o: SalesOrder, term: string)
  {
    MatchesCI(o.orderNumber, term) || MatchesCI(OrElse(o.customerName, ""), term)
  }

  /** `filteredOrders`. */
  function FilteredOrders(orders: seq<SalesOrder>, term: string): (r: seq<SalesOrder>)
    ensures forall o :: o in r <==> o in orders && OrderMatches(o, term)
    ensures IsSubseq(r, orders)
  {
    Filter(orders, (o: SalesOrder) => OrderMatches(o, term))
  }

  /** An empty search lists every order. */
  lemma FilteredOrdersEmpty(orders: seq<SalesOrder>)
    ensures FilteredOrders(orders, "") == orders
  {
    forall o | o in orders
      ensures OrderMatches(o, "")
    {
      EmptyQueryMatches(o.orderNumber);
    }
    FilterAll(orders, (o: SalesOrder) => OrderMatches(o, ""));
  }

  function HasOrderId(id: string): SalesOrder -> bool
  {
    (o: SalesOrder) => o.id == id
  }

  /** `selectedOrder`: the first order with the selected id, or none. */
  function SelectedOrder(orders: seq<SalesOrder>, selectedId: Option<string>): (r: Option<SalesOrder>)
    ensures selectedId.None? ==> r.None?
    ensures selectedId.Some? ==> (r.None? <==> forall o :: o in orders ==> o.id != selectedId.value)
    ensures r.Some? ==> exists k :: 0 <= k < |orders| && orders[k] == r.value && orders[k].id == selectedId.value &&
                          forall j :: 0 <= j < k ==> orders[j].id != selectedId.value
  {
    match selectedId
    case None => None
    case Some(id) => FindFirst(orders, HasOrderId(id))
  }

  function ForOrder(id: string): SalesOrderItem -> bool
  {
    (item: SalesOrderItem) => item.salesOrderId == id
  }

  /** `selectedOrderItems`: nothing without a selected order, then the
      items of that order in list order. */
  function SelectedOrderItems(items: seq<SalesOrderItem>, selected: Option<SalesOrder>): (r: seq<SalesOrderItem>)
    ensures selected.None? ==> r == []
    ensures selected.Some? ==> forall i :: i in r <==> i in items && i.salesOrderId == selected.value.id
    ensures IsSubseq(r, items)
  {
    match selected
    case None =>
      assert IsSubseq([], items);
      []
    case Some(o) => Filter(items, ForOrder(o.id))
  }

  /** The due date shown in the table: the order's due date, else its order
      date. */
  function ShownDueDate(o: SalesOrder): (d: Day)
    ensures o.dueDate.Some? ==> d == o.dueDate.value
    ensures o.dueDate.None? ==> d == o.orderDate
  {
    o.dueDate.GetOr(o.orderDate)
  }

  /** The history shows the same due date that the receivables page files
      the order under. */
  lemma ShownDueDateAgreesWithReceivables(orders: seq<SalesOrder>, cols: seq<CustomerCollection>, o: SalesOrder)
    ensures ShownDueDate(o) == Collection.ToPending(orders, cols, o).dueDate
  {
  }
}

=== FILE: products.dfy ===
/** The product catalogue (src/pages/Products.tsx): search with the brand
    dropdown, the payload of the product form, the list after a delete and the
    brand badge. */
module Products {
  import opened Common
  import opened Lists
  import opened Records
  import Colors

  /** The name case-insensitively, or the HSN code as typed. */
  predicate MatchesSearch(p: Product, term: string)
  {
    MatchesCI(p.name, term) || Includes(p.hsn, term)
  }

  /** `matchBrand`: no brand chosen, or the product's brand. */
  predicate MatchesBrand(p: Product, brandFilter: string)
  {
    brandFilter == "" || p.brandId == Some(brandFilter)
  }

  function Keep(term: string, brandFilter: string): Product -> bool
  {
    (p: Product) => MatchesSearch(p, term) && MatchesBrand(p, brandFilter)
  }

  /** `filteredProducts`. */
  function FilteredProducts(products: seq<Product>, term: string, brandFilter: string): (r: seq<Product>)
    ensures forall p :: p in r <==>
              p in products && (MatchesCI(p.name, term) || Includes(p.hsn, term)) &&
              (brandFilter == "" || p.brandId == Some(brandFilter))
    ensures IsSubseq(r, products)
  {
    Filter(products, Keep(term, brandFilter))
  }

  /** With an empty search and no brand chosen every product is listed. */
  lemma FilteredProductsEverything(products: seq<Product>)
    ensures FilteredProducts(products, "", "") == products
  {
    forall p | p in products
      ensures Keep("", "")(p)
    {
      EmptyQueryMatches(p.name);
    }
    FilterAll(products, Keep("", ""));
  }

  /** The fields of the product form. */
  datatype ProductForm = ProductForm(name: string, brandId: string, productType: string, hsn: string, pack: string)

  /** `payload` of `handleSave`: no brand chosen is sent as null. */
  function ProductPayloadOf(f: ProductForm): (p: ProductPayload)
    ensures p.brandId.None? <==> f.brandId == ""
    ensures OrElse(p.brandId, "") == f.brandId
    ensures p.name == f.name && p.productType == f.productType && p.hsn == f.hsn && p.pack == f.pack
  {
    NullIfEmptyRoundTrip(f.brandId);
    ProductPayload(f.name, NullIfEmpty(f.brandId), f.productType, f.hsn, f.pack)
  }

  /** `handleSave`: the product being edited is updated, otherwise one is
      created. */
  function SaveProduct(editing: Option<Product>, f: ProductForm): (r: SaveRequest<ProductPayload>)
    ensures r.Update? <==> editing.Some?
    ensures r.Update? ==> r.id == editing.value.id
    ensures r.payload == ProductPayloadOf(f)
    ensures r.payload.brandId.None? <==> f.brandId == ""
  {
    SaveTo(if editing.Some? then Some(editing.value.id) else None, ProductPayloadOf(f))
  }

  function ProductId(p: Product): string
  {
    p.id
  }

  /** `handleDelete` after the backend has deleted the product. */
  function DeleteProduct(products: seq<Product>, id: string, confirmed: bool): (r: seq<Product>)
    ensures !confirmed ==> r == products
    ensures confirmed ==> forall p :: p in r <==> p in products && p.id != id
    ensures confirmed ==> forall p :: multiset(r)[p] == if p.id != id then multiset(products)[p] else 0
    ensures IsSubseq(r, products)
  {
    if confirmed then RemoveKey(products, ProductId, id)
    else
      IsSubseqRefl(products);
      products
  }

  /** The brand badge of a product card. */
  datatype Badge = Badge(text: string, scheme: Colors.Scheme)

  /** The badge shows the brand name, or `Generic` when it is missing or
      empty, but is coloured by the raw field: a missing name takes the
      colour of `Generic`, an empty one the colour of the empty string. */
  function BrandBadge(p: Product): (b: Badge)
    ensures b.text != ""
    ensures p.brandName.None? ==> b == Badge("Generic", Colors.Orange)
    ensures p.brandName == Some("") ==> b == Badge("Generic", Colors.Emerald)
  {
    Badge(OrElse(p.brandName, "Generic"), Colors.BrandColour(p.brandName))
  }
}

=== FILE: records.dfy ===
/** The records exchanged with the backend (src/types/app.ts), reduced to
    the fields the pages read or write. A field that the record type marks
    optional or nullable is an `Option`; where both a snake_case and a
    camelCase spelling exist, both are kept. Dates the pages compare are day
    numbers; dates the pages only pass through are strings. */
module Records {
  import opened Common

  datatype PaymentMode = Cash | Upi | Card | Cheque | BankTransfer

  /** Customer collections accept every mode except bank transfer. */
  type CollectionMode = m: PaymentMode | !m.BankTransfer? witness Cash

  datatype PaymentStatus = Pending | Partial | Paid | Cancelled

  datatype Dealer = Dealer(
    id: string,
    contactNameSnake: Option<string>,
    contactNameCamel: Option<string>,
    companyNameSnake: Option<string>,
    companyNameCamel: Option<string>,
    mobileNoSnake: Option<string>,
    mobileNoCamel: Option<string>,
    address: Option<string>,
    city: Option<string>,
    isActiveSnake: Option<bool>,
    isActiveCamel: Option<bool>,
    outstandingBalanceSnake: Option<Money>,
    outstandingBalanceCamel: Option<Money>)

  datatype DealerPayload = DealerPayload(
    contactName: string,
    companyName: string,
    mobileNo: string,
    address: Option<string>,
    city: Option<string>,
    isActive: bool,
    outstandingBalance: Money)

  datatype Brand = Brand(
    id: string,
    name: string,
    companyNameSnake: Option<string>,
    companyNameCamel: Option<string>)

  datatype BrandPayload = BrandPayload(name: string, companyName: string)

  datatype Product = Product(
    id: string,
    name: string,
    brandId: Option<string>,
    productType: string,
    hsn: string,
    pack: string,
    brandName: Option<string>)

  datatype ProductPayload = ProductPayload(
    name: string,
    brandId: Option<string>,
    productType: string,
    hsn: string,
    pack: string)

  datatype PurchaseOrder = PurchaseOrder(
    id: string,
    purchaseOrderNumber: string,
    dealerId: Option<string>,
    dealerCompanyName: Option<string>,
    orderDate: Option<Day>,
    dueDate: Option<Day>,
    totalAmount: Option<Money>)

  datatype PurchaseOrderPayload = PurchaseOrderPayload(
    purchaseOrderNumber: string,
    dealerId: Option<string>,
    orderDate: string,
    dueDate: Option<string>,
    totalAmount: Money,
    paymentStatus: PaymentStatus,
    notes: Option<string>)

  datatype InventoryBatch = InventoryBatch(
    id: string,
    productId: string,
    dealerId: Option<string>,
    purchaseOrderId: Option<string>,
    batchNo: string,
    expiryDate: Option<string>,
    hsn: string,
    pack: string,
    qty: int,
    mrp: Money,
    purchaseRate: Money,
    sgst: real,
    cgst: real,
    totalPurchaseAmount: Money,
    productName: Option<string>,
    dealerCompanyName: Option<string>)

  datatype InventoryBatchPayload = InventoryBatchPayload(
    productId: string,
    dealerId: Option<string>,
    purchaseOrderId: Option<string>,
    batchNo: string,
    expiryDate: Option<string>,
    hsn: string,
    pack: string,
    qty: int,
    mrp: Money,
    purchaseRate: Money,
    sgst: real,
    cgst: real,
    totalPurchaseAmount: Money)

  datatype SalesOrder = SalesOrder(
    id: string,
    orderNumber: string,
    customerId: Option<string>,
    customerName: Option<string>,
    orderDate: Day,
    dueDate: Option<Day>,
    totalAmount: Money)

  datatype SalesOrderPayload = SalesOrderPayload(
    orderNumber: string,
    customerId: string,
    orderDate: Day,
    dueDate: Day,
    taxableValue: Money,
    sgstTotal: Money,
    cgstTotal: Money,
    totalAmount: Money,
    paymentStatus: PaymentStatus)

  datatype SalesOrderItem = SalesOrderItem(
    id: int,
    salesOrderId: string,
    inventoryBatchId: Option<string>,
    productName: string,
    qty: int,
    rate: Money,
    lineAmount: Money)

  datatype SalesOrderItemPayload = SalesOrderItemPayload(
    salesOrderId: string,
    inventoryBatchId: string,
    productId: string,
    productName: string,
    batchNo: string,
    expiryDate: Option<string>,
    pack: string,
    hsn: string,
    qty: int,
    mrp: Money,
    rate: Money,
    sgst: real,
    cgst: real,
    lineAmount: Money)

  datatype CustomerCollection = CustomerCollection(
    id: string,
    salesOrderId: string,
    customerId: Option<string>,
    paymentDate: Day,
    amount: Money,
    paymentMode: CollectionMode,
    comment: Option<string>)

  datatype CustomerCollectionPayload = CustomerCollectionPayload(
    salesOrderId: string,
    customerId: Option<string>,
    paymentDate: Day,
    amount: Money,
    paymentMode: CollectionMode,
    comment: Option<string>)

  datatype DealerPayment = DealerPayment(
    id: string,
    purchaseOrderId: string,
    dealerId: Option<string>,
    paymentDate: Day,
    amount: Money,
    paymentMode: PaymentMode,
    comment: Option<string>)

  datatype DealerPaymentPayload = DealerPaymentPayload(
    purchaseOrderId: string,
    dealerId: Option<string>,
    paymentDate: Day,
    amount: Money,
    paymentMode: PaymentMode,
    comment: Option<string>)
}

=== FILE: stock.dfy ===
/** The stock manager (src/pages/StockManager.tsx): the inventory search,
    the purchase orders offered for the chosen dealer, the batch and purchase
    order payloads, and the list after a delete. */
module Stock {
  import opened Common
  import opened Lists
  import opened Records

  function HasProductId(id: string): Product -> bool
  {
    (p: Product) => p.id == id
  }

  function HasDealerId(id: string): Dealer -> bool
  {
    (d: Dealer) => d.id == id
  }

  /** The product name searched: the batch's own, else the name of the first
      product with the batch's product id, else empty. */
  function ProductNameOf(item: InventoryBatch, products: seq<Product>): (name: string)
    ensures item.productName.Some? && item.productName.value != "" ==> name == item.productName.value
    ensures (item.productName.None? || item.productName == Some("")) && (forall p :: p in products ==> p.id != item.productId) ==> name == ""
    ensures name != "" && (item.productName.None? || item.productName == Some("")) ==>
              exists p :: p in products && p.id == item.productId && p.name == name
    ensures forall k ::
              (&& 0 <= k < |products| && products[k].id == item.productId
               && (forall j :: 0 <= j < k ==> products[j].id != item.productId)
               && (item.productName.None? || item.productName == Some("")))
              ==> name == products[k].name
  {
    if item.productName.Some? && item.productName.value != "" then item.productName.value
    else
      match FindFirst(products, HasProductId(item.productId))
      case None =>
        assert forall k :: 0 <= k < |products| ==> products[k] in products;
        ""
      case Some(p) => p.name
  }

  /** The dealer name searched: the batch's own, else the snake_case company
      name of the first dealer with the batch's dealer id, else empty. A
      batch without a dealer id matches no dealer. */
  function DealerNameOf(item: InventoryBatch, dealers: seq<Dealer>): (name: string)
    ensures item.dealerCompanyName.Some? && item.dealerCompanyName.value != "" ==> name == item.dealerCompanyName.value
    ensures (item.dealerCompanyName.None? || item.dealerCompanyName == Some("")) && item.dealerId.None? ==> name == ""
    ensures name != "" && (item.dealerCompanyName.None? || item.dealerCompanyName == Some("")) ==>
              item.dealerId.Some? &&
              exists d :: d in dealers && d.id == item.dealerId.value && d.companyNameSnake == Some(name)
    ensures forall k ::
              (&& 0 <= k < |dealers| && item.dealerId == Some(dealers[k].id)
               && (forall j :: 0 <= j < k ==> dealers[j].id != dealers[k].id)
               && (item.dealerCompanyName.None? || item.dealerCompanyName == Some("")))
              ==> name == OrElse(dealers[k].companyNameSnake, "")
  {
    if item.dealerCompanyName.Some? && item.dealerCompanyName.value != "" then item.dealerCompanyName.value
    else if item.dealerId.None? then ""
    else
      match FindFirst(dealers, HasDealerId(item.dealerId.value))
      case None =>
        assert forall k :: 0 <= k < |dealers| ==> dealers[k] in dealers;
        ""
      case Some(d) => OrElse(d.companyNameSnake, "")
  }

  /** `matchesSearch`: product name, batch number, dealer name or HSN code,
      all case-insensitively. */
  predicate MatchesSearch(item: InventoryBatch, products: seq<Product>, dealers: seq<Dealer>, term: string)
  {
    MatchesCI(ProductNameOf(item, products), term) ||
    MatchesCI(item.batchNo, term) ||
    MatchesCI(DealerNameOf(item, dealers), term) ||
    MatchesCI(item.hsn, term)
  }

  /** A batch without its own product name is found by the name of the
      first product with its product id, typed in any ASCII case. */
  lemma FoundByLookedUpProductName(item: InventoryBatch, products: seq<Product>, dealers: seq<Dealer>, k: int)
    requires item.productName.None? || item.productName == Some("")
    requires 0 <= k < |products| && products[k].id == item.productId
    requires forall j :: 0 <= j < k ==> products[j].id != item.productId
    ensures MatchesSearch(item, products, dealers, products[k].name)
    ensures MatchesSearch(item, products, dealers, Lower(products[k].name))
  {
    assert ProductNameOf(item, products) == products[k].name;
    IncludesSelf(Lower(products[k].name));
    LowerIdempotent(products[k].name);
  }

  /** `matchesDropdown`. */
  predicate MatchesProduct(item: InventoryBatch, productFilter: string)
  {
    productFilter == "" || item.productId == productFilter
  }

  function Keep(products: seq<Product>, dealers: seq<Dealer>, term: string, productFilter: string): InventoryBatch -> bool
  {
    (item: InventoryBatch) => MatchesSearch(item, products, dealers, term) && MatchesProduct(item, productFilter)
  }

  /** `filtered`: the batches that match both the search and the product
      dropdown, in list order. */
  function Filtered(inventory: seq<InventoryBatch>, products: seq<Product>, dealers: seq<Dealer>, term: string, productFilter: string): (r: seq<InventoryBatch>)
    ensures forall item :: item in r <==>
              item in inventory && MatchesSearch(item, products, dealers, term) &&
              (productFilter == "" || item.productId == productFilter)
    ensures IsSubseq(r, inventory)
  {
    Filter(inventory, Keep(products, dealers, term, productFilter))
  }

  /** With an empty search and no product chosen every batch is listed. */
  lemma FilteredEverything(inventory: seq<InventoryBatch>, products: seq<Product>, dealers: seq<Dealer>)
    ensures Filtered(inventory, products, dealers, "", "") == inventory
  {
    forall item | item in inventory
      ensures Keep(products, dealers, "", "")(item)
    {
      EmptyQueryMatches(ProductNameOf(item, products));
    }
    FilterAll(inventory, Keep(products, dealers, "", ""));
  }

  /** Choosing a product only narrows the list: the result is what the
      search alone finds, restricted to that product. */
  lemma ProductFilterNarrows(inventory: seq<InventoryBatch>, products: seq<Product>, dealers: seq<Dealer>, term: string, productId: string)
    requires productId != ""
    ensures forall item :: item in Filtered(inventory, products, dealers, term, productId) <==>
              item in Filtered(inventory, products, dealers, term, "") && item.productId == productId
  {
    var narrow := Filtered(inventory, products, dealers, term, productId);
    var wide := Filtered(inventory, products, dealers, term, "");
    forall item
      ensures item in narrow <==> item in wide && item.productId == productId
    {
      assert item in narrow <==> item in inventory && MatchesSearch(item, products, dealers, term) && MatchesProduct(item, productId);
      assert item in wide <==> item in inventory && MatchesSearch(item, products, dealers, term);
    }
  }

  function ForDealer(dealerId: string): PurchaseOrder -> bool
  {
    (po: PurchaseOrder) => po.dealerId == Some(dealerId)
  }

  /** `purchaseOrdersForSelectedDealer`: nothing until a dealer is chosen,
      then that dealer's purchase orders in list order. */
  function PurchaseOrdersForDealer(pos: seq<PurchaseOrder>, selectedDealer: string): (r: seq<PurchaseOrder>)
    ensures selectedDealer == "" ==> r == []
    ensures selectedDealer != "" ==> forall po :: po in r <==> po in pos && po.dealerId == Some(selectedDealer)
    ensures IsSubseq(r, pos)
  {
    if selectedDealer == "" then
      assert IsSubseq([], pos);
      []
    else
      Filter(pos, ForDealer(selectedDealer))
  }

  /** The fields of the batch form. Numbers arrive parsed; an empty tax box
      is `None`. */
  datatype BatchForm = BatchForm(
    productId: string,
    dealerId: string,
    purchaseOrderId: string,
    batchNo: string,
    expiryDate: string,
    hsn: string,
    pack: string,
    qty: int,
    mrp: Money,
    purchaseRate: Money,
    sgst: Option<real>,
    cgst: Option<real>)

  /** `payload` of `handleSave`. */
  function BatchPayload(f: BatchForm): (p: InventoryBatchPayload)
    ensures p.totalPurchaseAmount == f.qty as real * f.purchaseRate
    ensures f.qty >= 0 && f.purchaseRate >= 0.0 ==> p.totalPurchaseAmount >= 0.0
    ensures p.dealerId.None? <==> f.dealerId == ""
    ensures p.purchaseOrderId.None? <==> f.purchaseOrderId == ""
    ensures p.expiryDate.None? <==> f.expiryDate == ""
    ensures OrElse(p.dealerId, "") == f.dealerId && OrElse(p.purchaseOrderId, "") == f.purchaseOrderId
    ensures OrElse(p.expiryDate, "") == f.expiryDate
    ensures f.sgst.None? ==> p.sgst == 0.0
    ensures f.cgst.None? ==> p.cgst == 0.0
    ensures f.sgst.Some? ==> p.sgst == f.sgst.value
    ensures f.cgst.Some? ==> p.cgst == f.cgst.value
    ensures p.productId == f.productId && p.batchNo == f.batchNo && p.qty == f.qty
    ensures p.hsn == f.hsn && p.pack == f.pack && p.mrp == f.mrp && p.purchaseRate == f.purchaseRate
  {
    NullIfEmptyRoundTrip(f.dealerId);
    NullIfEmptyRoundTrip(f.purchaseOrderId);
    NullIfEmptyRoundTrip(f.expiryDate);
    NonNegativeTotal(f.qty, f.purchaseRate);
    InventoryBatchPayload(
      f.productId,
      NullIfEmpty(f.dealerId),
      NullIfEmpty(f.purchaseOrderId),
      f.batchNo,
      NullIfEmpty(f.expiryDate),
      f.hsn,
      f.pack,
      f.qty,
      f.mrp,
      f.purchaseRate,
      f.sgst.GetOr(0.0),
      f.cgst.GetOr(0.0),
      f.qty as real * f.purchaseRate)
  }

  lemma NonNegativeTotal(qty: int, rate: Money)
    ensures qty >= 0 && rate >= 0.0 ==> qty as real * rate >= 0.0
  {
  }

  /** `handleSave`: the batch being edited is updated, otherwise a batch is
      created, with the same payload either way. */
  function SaveBatch(editing: Option<InventoryBatch>, f: BatchForm): (r: SaveRequest<InventoryBatchPayload>)
    ensures r.Update? <==> editing.Some?
    ensures r.Update? ==> r.id == editing.value.id
    ensures r.payload == BatchPayload(f)
    ensures r.payload.totalPurchaseAmount == f.qty as real * f.purchaseRate
  {
    SaveTo(if editing.Some? then Some(editing.value.id) else None, BatchPayload(f))
  }

  function BatchId(item: InventoryBatch): string
  {
    item.id
  }

  /** `handleDelete` after the backend has deleted the batch: a cancelled
      confirmation leaves the list as it was. */
  function DeleteBatch(inventory: seq<InventoryBatch>, id: string, confirmed: bool): (r: seq<InventoryBatch>)
    ensures !confirmed ==> r == inventory
    ensures confirmed ==> forall item :: item in r <==> item in inventory && item.id != id
    ensures confirmed ==> forall item :: multiset(r)[item] == if item.id != id then multiset(inventory)[item] else 0
    ensures IsSubseq(r, inventory)
  {
    if confirmed then RemoveKey(inventory, BatchId, id)
    else
      IsSubseqRefl(inventory);
      inventory
  }

  /** The purchase order form. An empty total box is `None`. */
  datatype PurchaseOrderForm = PurchaseOrderForm(
    purchaseOrderNumber: string,
    dealerId: string,
    orderDate: string,
    dueDate: string,
    totalAmount: Option<Money>,
    paymentStatus: PaymentStatus,
    notes: string)

  /** `handleCreatePurchaseOrder` up to the request: no number or no order
      date sends nothing. */
  function CreatePurchaseOrder(f: PurchaseOrderForm): (r: Option<PurchaseOrderPayload>)
    ensures r.None? <==> f.purchaseOrderNumber == "" || f.orderDate == ""
    ensures r.Some? ==>
              && r.value.purchaseOrderNumber == f.purchaseOrderNumber
              && r.value.orderDate == f.orderDate
              && r.value.paymentStatus == f.paymentStatus
              && r.value.totalAmount == f.totalAmount.GetOr(0.0)
              && (r.value.dealerId.None? <==> f.dealerId == "")
              && (r.value.dueDate.None? <==> f.dueDate == "")
              && (r.value.notes.None? <==> f.notes == "")
              && OrElse(r.value.dealerId, "") == f.dealerId
              && OrElse(r.value.dueDate, "") == f.dueDate
              && OrElse(r.value.notes, "") == f.notes
  {
    if f.purchaseOrderNumber == "" || f.orderDate == "" then None
    else
      NullIfEmptyRoundTrip(f.dealerId);
      NullIfEmptyRoundTrip(f.dueDate);
      NullIfEmptyRoundTrip(f.notes);
      Some(PurchaseOrderPayload(
        f.purchaseOrderNumber,
        NullIfEmpty(f.dealerId),
        f.orderDate,
        NullIfEmpty(f.dueDate),
        f.totalAmount.GetOr(0.0),
        f.paymentStatus,
        NullIfEmpty(f.notes)))
  }
}
